=== FILE: README.md ===
# Image caption compositor and history: a Dafny model

The application asks a vision model for a caption. It then composites the caption
onto the image in one of two modes:

- **overlay**: the caption is drawn over the image, each line on a dark plate;
- **background**: a band is added above the image and the caption is drawn in it.

It keeps a history of the captions it generated. This project models the parts
of that application that are pure logic:

- the greedy word wrap that both compositing modes share (`Wrap`);
- the geometry of each mode (`Overlay`, `Background`);
- the history store (`History`) and the panel that shows its ten newest records (`Panel`);
- the colour-picker conversion from `"#rrggbb"` to an RGB triple (`Colors`);
- the font menu built from the font files found (`Fonts`).

Some Python behaviour needs modelling first: `str.split()`, the whitespace
trimming of `int()`, `lower()`, string ordering, slicing with negative and
out-of-range indices, `reversed`, and filtering comprehensions. `Basics` and
`Text` model these. `Text.JoinSpace` (single-space joining) is not called by the
application; it is a modelling device that states what a wrapped line looks like.

Glyph metrics are not computed. `Metrics` stands for the font: a width and a
height for every string, as `ImageDraw.textbbox` or `cv2.getTextSize` would
report them. Every property of the wrap and of the layouts holds for any such
metrics.

The files behind the history store are modelled by their contents. In
file-backed mode, which the interface uses, `clear_history` removes the
chat-history file. LangChain's file history reads that file before it writes a
message, so every later `add_interaction` raises `FileNotFoundError` before it
saves anything, until the store is reopened (`History.ClearThenAddFails`).
That reading of LangChain's library is an assumption of this model, since the
library is not part of it. The clock
reading that stamps a new record is a parameter, and so is the list of font
files the directory listing returns.

An empty caption is one empty line only when it fits as a whole. A blank
caption wider than the wrap width gives no lines at all
(`Wrap.BlankCaptionLines`, `Wrap.WrapLineShape`). Background mode then computes
a band height of -10 (`Background.BackgroundLayout`).

## Model

| member | source | states |
|---|---|---|
| `Basics.SuffixFrom` | caption_history.py:109 | `s[k:]` for any integer `k`: its length and that it is the tail of `s`. A negative `k` keeps the last `-k` items. `k == 0` keeps everything. |
| `Basics.Slice` | main.py:202 | `s[i:j]` is clamped to the sequence. Its length is the clamped width and item `k` is `s[i + k]`. |
| `Basics.Reverse` | main.py:239 | `reversed` keeps the length and puts item `i` at position `n - 1 - i`. |
| `Basics.Filter` | caption_history.py:113 | A filtering comprehension keeps exactly the matching items, each as often as it occurs, in their original order. |
| `Text.Split` | caption_overlay.py:35 | `caption.split()` yields only non-empty words without whitespace. `Text.SplitWord`, `Text.SplitBlank` and `Text.SplitAtSpace` fix its result on every string. |
| `Text.SplitWord` | caption_overlay.py:35 | A string that is one word splits into just that word. |
| `Text.SplitBlank` | caption_overlay.py:35 | A string of whitespace only splits into no words. |
| `Text.SplitAtSpace` | caption_overlay.py:35 | Splitting at any whitespace character gives the words before it followed by the words after it. With the two rows above, this determines the split of every string. |
| `Text.SplitJoin` | caption_overlay.py:35-40 | Splitting words joined by single spaces gives back the words. |
| `Text.JoinSpaceSnoc` | caption_overlay.py:40 | Appending a word to a joined line adds one separating space, unless the line is empty. |
| `Text.Strip` | main.py:202 | `str.strip()`: the result is a slice of the string, everything cut off on either side is whitespace, and the result has no whitespace at either end. `int(t, 16)` trims the same characters except U+001C to U+001F, which it rejects; `Colors.FieldParses` adds that rejection. |
| `Text.Lower` | caption_overlay.py:60-62 | `lower()` keeps the length, leaves no ASCII capital, turns each capital into its small letter and keeps every other character. |
| `Text.LowerIdempotent` | caption_overlay.py:60-62 | Lowering a lowered string changes nothing. |
| `Text.LexLessTransitive` | main.py:35 | The string order that `sorted` uses is transitive. |
| `Text.LexLessTotal` | main.py:35 | Any two different strings are ordered one way or the other. |
| `Text.LexLessAsymmetric` | main.py:35 | No two strings are each below the other. |
| `Wrap.GreedyWords` | caption_overlay.py:39-52 | The words of the lines the loop emits are the words of the pending line followed by the words still to place. |
| `Wrap.GreedyWordsBreak` | caption_overlay.py:46-49 | The same holds when the next word closes the pending line. |
| `Wrap.GreedySpaced` | caption_overlay.py:39-52 | Every emitted line is non-empty words separated by single spaces. |
| `Wrap.GreedyWidths` | caption_overlay.py:39-52 | Every emitted line fits the width or is a single word. |
| `Wrap.GreedyMaximal` | caption_overlay.py:39-52 | A line is closed only when the next line's first word would not fit after it. |
| `Wrap.Greedy` | caption_overlay.py:36-52 | The packing loop. Its behaviour is stated by `Wrap.GreedyWords`, `Wrap.GreedySpaced`, `Wrap.GreedyWidths` and `Wrap.GreedyMaximal`. |
| `Wrap.WrapCaption` | caption_overlay.py:34-54 | The wrap of both backends: the caption alone when it fits, the greedy packing of its words otherwise. Its behaviour is stated by `Wrap.WrapPreservesWords`, `Wrap.WrapLineWidth`, `Wrap.WrapLineShape` and `Wrap.WrapIsGreedy`. |
| `Wrap.WrapPreservesWords` | caption_overlay.py:34-54 | The wrapped lines hold exactly the caption's words, in order. |
| `Wrap.WrapLineWidth` | caption_overlay.py:34-54 | Every wrapped line fits the wrap width or is one word too wide to break. |
| `Wrap.WrapLineShape` | caption_overlay.py:34-54 | A caption that fits stays one line. Otherwise the lines are single-spaced and non-empty, there are no more lines than words, and there are no lines exactly when there are no words. |
| `Wrap.WrapIsGreedy` | caption_overlay.py:39-50 | Each break is forced: a line ends only where the first word of the next line would not fit after it. |
| `Wrap.BlankCaptionLines` | caption_overlay.py:34-54 | An empty caption that fits is one empty line. The caption `" "`, when too wide to fit, gives no line. `Wrap.WrapLineShape` gives the general case: a caption too wide to fit with no words gives no lines. |
| `Metrics.CenteredX` | caption_overlay.py:72 | `(width - w) // 2` centres a run of `w` pixels: the right margin equals the left margin or exceeds it by one. |
| `Overlay.StartY` | caption_overlay.py:60-65 | The block ends 20 pixels above the bottom, or starts at row 30, or is centred to within one pixel. The choice depends on the lower-cased position. |
| `Overlay.PlaceLine` | caption_overlay.py:68-79 | Line `i` holds its text with the top of its box `i` line heights below the block start. The box is the width-by-height box the metrics give, placed at the draw point. The line is centred, and its plate is exactly that box widened by 10 pixels on each side and 5 above and below. This holds for both drawing backends, with OpenCV drawing from the box's bottom-left corner. |
| `Overlay.PlaceAll` | caption_overlay.py:66-82 | Line `i` of the block holds `lines[i]`, centred on its plate, with the top of its box `i` line heights below the block start. Consecutive box tops are one line height apart. The same holds for the OpenCV loop at caption_overlay.py lines 129-139. |
| `Overlay.LineHeight` | caption_overlay.py:57 | PIL advances by the caption's height plus 10 and OpenCV by the height of "A" plus 10. `Overlay.OverlayLayout` states this. |
| `Overlay.OverlayLayout` | caption_overlay.py:28-79 | The overlay draws the wrapped lines. They keep the caption's words, and each fits the width less 40 or is a single word. The line height is the caption's height plus 10 for PIL and the height of "A" plus 10 for OpenCV (caption_overlay.py:118). The block starts where `Overlay.StartY` puts a block of that many line heights. Every line is centred on its plate, with the top of its box one line height below the previous one. |
| `Overlay.PositionIgnoresCase` | caption_overlay.py:121-126 | The placement depends on the position only up to letter case. |
| `Overlay.InterfacePositions` | main.py:115 | The three choices the interface offers give the bottom, top and centred placements. |
| `Background.BackgroundLayout` | caption_overlay.py:166-216 | The canvas keeps the width. The image is pasted flush with the bottom. Lines are centred, the first at the margin, each one caption height plus 10 below the previous, and the last ends one margin above the pasted image. With no lines the band above the image is 10 pixels shorter than the two margins. |
| `History.SaveMetadata` | caption_history.py:63-68 | Saving appends the record to the stored records and changes nothing else. |
| `History.AddInteraction` | caption_history.py:22-51 | With a truthy timestamp nothing changes. Otherwise the add fails exactly when the chat-history file has been removed. When it succeeds, it appends one record stamped with the clock reading and a human/AI message pair. |
| `History.Replay` | caption_history.py:74-93 | Reloading rebuilds two messages per record, in record order, with that record's fields. |
| `History.GetHistory` | caption_history.py:56-61 | The stored records. A missing metadata file reads as `[]`, which `History.Open` and `History.ClearHistory` state. |
| `History.LoadHistory` | caption_history.py:70-93 | A file-backed history is left alone. An in-memory one gains the rebuilt messages after its own. |
| `History.Open` | caption_history.py:10-20 | Opening keeps the stored records. A file-backed store keeps its stored messages; an in-memory one starts with the rebuilt messages. |
| `History.ClearHistory` | caption_history.py:95-105 | Clearing leaves no records and no messages. A file-backed store also loses its chat-history file. |
| `History.RecentInteractions` | caption_history.py:107-109 | Positive `n` gives the last `n` records. `n == 0` gives all records. Negative `n` drops the first `-n`. |
| `History.Matching` | caption_history.py:111-117 | Searching by model or by image name gives exactly the records whose field equals the value, each as often as it occurs, in history order. |
| `History.SearchByModel` | caption_history.py:111-113 | `History.Matching` on the model field. |
| `History.SearchByImage` | caption_history.py:115-117 | `History.Matching` on the image-name field. |
| `History.ReloadDropsPeriod` | caption_history.py:76-77 | The reloaded human prompt is the one written on add without its final period. |
| `History.ReplaySnoc` | caption_history.py:74-93 | Reloading one more record appends exactly that record's exchange. |
| `History.ReopenAfterAdd` | caption_history.py:22-43 | Adding an interaction to an in-memory store succeeds. Reopening then gives back the same messages, except that the new human prompt lacks its final period. |
| `History.AddClearAndRecent` | caption_history.py:95-109 | For an in-memory store, add then clear leaves no history. Two adds after a clear succeed and list both records in order, and the most recent one is the second. |
| `History.ClearThenAddFails` | caption_history.py:42-43 | For a file-backed store, an add after a clear fails and the history stays empty. |
| `History.SearchByModelExample` | caption_history.py:111-113 | Of records with models openai, gemini, groq, gemini, a search for gemini finds the second and the fourth. |
| `Colors.ParseHexField` | main.py:202 | `int(t, 16)` on a field of at most two characters succeeds exactly when the field holds no character from U+001C to U+001F and the stripped field is an optional sign followed by at least one hex digit. It then gives the signed value of those digits. Anything else fails, as `ValueError` does. |
| `Colors.HexToRgb` | main.py:202-203 | A colour code converts to the byte triple its digit pairs spell. The conversion succeeds exactly when all three fields parse. A string of five characters or fewer fails. |
| `Colors.NonHexCode` | main.py:202-203 | `"#gg0000"` fails, because `int("gg", 16)` raises `ValueError`. |
| `Colors.SeparatorField` | main.py:202-203 | The field `"1\x1c"` fails, and so does `"#1\x1c0000"`: `int` does not trim U+001C, although `str.strip()` does. |
| `Colors.Convert` | main.py:202-203 | The three-field conversion. `Colors.HexToRgb` states when it succeeds and what it gives. |
| `Colors.ColorCodeRoundTrip` | main.py:202-203 | Converting the colour code written for any byte triple gives the triple back. |
| `Colors.ConvertedCodeRoundTrip` | main.py:202-203 | A lower-case colour code is the code of the triple it converts to. |
| `Colors.SignedFields` | main.py:202 | `"#-1-1-1"` converts to (-1, -1, -1): components are bytes only for well-formed codes. |
| `Colors.ShortCode` | main.py:202 | `"#12345"` converts to (18, 52, 5): the short last field is read as one digit. |
| `Fonts.Basename` | main.py:29 | The base name is the longest suffix without '/'. |
| `Fonts.StripExtension` | main.py:29 | The root is a prefix of the name. What it drops is the last '.' and what follows. It drops something exactly when a non-dot character precedes some dot. |
| `Fonts.Readable` | main.py:31 | Hyphens and underscores become spaces and every other character is kept. |
| `Fonts.DisplayName` | main.py:29-31 | A display name holds no slash, hyphen or underscore, and is never longer than the path. `Fonts.DisplayNameTypical` gives an example. |
| `Fonts.DisplayNameTypical` | main.py:29-31 | `fonts/Open_Sans-Bold.ttf` is listed as "Open Sans Bold". |
| `Fonts.StripExtensionDotOnly` | main.py:29 | `splitext(".ttf")` keeps the whole name, because a leading dot starts no extension. The `*.ttf` glob never lists such a file, so this is a fact about `splitext` alone. |
| `Fonts.AssignKeys` | main.py:32 | Assigning to a dict keeps the key order, and a new key goes last. |
| `Fonts.AssignFind` | main.py:32 | After assigning, the key maps to the new value and every other key keeps its value. |
| `Fonts.LastNamedSpec` | main.py:27-32 | The reference lookup finds a path exactly when some path has that name. What it finds is the last path with that name. |
| `Fonts.CollectSpec` | main.py:27-32 | The collected dict has distinct names, and each name maps to the last listed path with that display name. |
| `Fonts.InsertKeys` | main.py:35 | Inserting into a name-ordered list adds that entry and nothing else. |
| `Fonts.InsertSorted` | main.py:35 | Inserting keeps the names strictly ascending. |
| `Fonts.SortSpec` | main.py:35 | Sorting the items orders the names strictly and keeps every entry. |
| `Fonts.UpdateAllSpec` | main.py:36-37 | Updating the default-first dict with ascending items keeps the default first and the rest ascending. A name takes the items' value when they have it. |
| `Fonts.FontMenuOrder` | main.py:34-38 | The menu lists "Default (Streamlit)" first, then the display names in strictly ascending order, each once. |
| `Fonts.FontMenuEntries` | main.py:18-39 | The menu names the default and the display name of every listed file, and nothing else. Each name selects the last file listed under it, and a file named like the default takes its place. |
| `Fonts.AvailableFonts` | main.py:18-39 | The font menu. `Fonts.FontMenuOrder` and `Fonts.FontMenuEntries` state what it holds. |
| `Panel.LatestFirst` | main.py:239 | `reversed(history[-10:])` holds the last ten records at most, newest first. |
| `Panel.HistoryPanel` | main.py:236-246 | The panel shows a notice exactly when there is no history. Otherwise it lists the last `min(10, len)` records, newest first. |
| `Panel.PanelIsRecentReversed` | main.py:239 | The panel lists the records `get_recent_interactions(10)` returns, in reverse order. |

## Left out

- Pixel rendering is not modelled: colour conversion, drawing, pasting, encoding the download. Only where things are drawn is modelled.
- Glyph metrics, font loading and the fallback to the default font are not modelled. They are the abstract `Metrics`, and the backend is an input.
- `pil_font_size = int(font_size * 20)` (caption_overlay.py:23) is left out. It only chooses a font, and fonts are abstract here.
- The directory listing is not modelled: `os.path.exists("fonts")` and the two `glob` patterns (main.py:23-25). The found paths and their order are an input.
- JSON encoding of both files and LangChain's message classes are left out. Records and messages are plain datatypes. Of the missing-file cases, two are modelled: a missing metadata file reads as no records, and a removed chat-history file makes `add_message` fail. A file that exists but does not hold valid JSON is not modelled.
- `datetime.now()` is not modelled; the clock reading is a parameter of `AddInteraction`.
- `get_messages` is left out. For an in-memory store it is a field read, and `Store.messages` stands for it. For a file-backed store it reads the chat-history file, so once `clear_history` has removed that file (`chatFileGone`) it raises `FileNotFoundError`. `Store.messages == []` is then only a placeholder.
- Text formatting is not modelled: the expander title (main.py:240) and the Streamlit page itself.
- caption_generation.py (calls to the model providers) is not part of this model.
- Fonts.Basename: paths are taken to be POSIX paths. On Windows `glob` yields `fonts\Name.ttf`, and `basename` and `splitext` also split at a backslash, which this model does not do. `Fonts.StripExtension` and `Fonts.DisplayName` inherit this.
- Overlay.PlaceLine: `Metrics` keeps only the width and height of a string. It drops the origin of `textbbox`'s box and OpenCV's baseline. So a line's "box" is the width-by-height box at the draw point, not the inked pixels, which can reach past the plate by the dropped offset or by a descender.
- Text.Strip: it is `str.strip()`. `int()` trims the same whitespace except U+001C to U+001F, and that difference is modelled in `Colors.FieldParses`, not here.
- Colors.ParseHexField: Python's `int` also accepts non-ASCII decimal digits. A two-character field holding them reads differently in Python, and the model leaves this out.
- Text.Lower: only ASCII letters are lowered. Python lowers other letters too, and two of them lower to ASCII: U+212A KELVIN SIGN to "k", and U+0130 to "i" followed by a combining dot. Neither "bottom" nor "top" contains a "k" or an "i", so comparing with those words agrees with Python.
- Background.BackgroundLayout: the paste row `int(total_text_height + 2 * margin)` is already an integer, so `int` is the identity. The slider keeps `margin` between 20 and 100, while the model allows any integer.

=== FILE: background.dfy ===
/** Background mode of the compositor: the canvas is made taller, the wrapped
    caption is drawn in a band at the top, and the original image is pasted below
    it, flush with the bottom edge. */
module Background {
  import opened Text
  import opened Metrics
  import Wrap

  /** The new canvas: its size, the row where the original image is pasted, the
      wrapped lines, and the point where each line is drawn. */
  datatype Canvas = Canvas(width: int, height: int, pasteY: int,
                           lines: seq<string>, xs: seq<int>, ys: seq<int>)

  /** The wrap width: the image width less the margin on each side. */
  function MaxWidth(width: int, margin: int): int {
    width - 2 * margin
  }

  /** Height of a band of `n` lines of `textHeight` pixels with a gap between
      consecutive lines only. */
  function BandHeight(n: int, textHeight: int): int {
    n * textHeight + (n - 1) * LineGap
  }

  lemma BandOfLines(n: int, textHeight: int)
    ensures BandHeight(n, textHeight) == (n - 1) * (textHeight + LineGap) + textHeight
  {
  }


  /** The canvas `add_caption_background` builds for an image `width` by `height`.
      Every line advances by the height of the whole caption plus the gap. */
  method BackgroundLayout(m: Metrics, caption: string, width: int, height: int, margin: int)
    returns (c: Canvas)
    ensures c.lines == Wrap.WrapCaption(caption, m.width, MaxWidth(width, margin))
    ensures c.width == width
    ensures c.pasteY + height == c.height
    ensures |c.xs| == |c.lines| && |c.ys| == |c.lines|
    ensures forall i :: 0 <= i < |c.lines| ==> 0 <= (width - (c.xs[i] + m.width(c.lines[i]))) - c.xs[i] <= 1
    ensures |c.lines| > 0 ==> c.ys[0] == margin
    ensures forall i :: 1 <= i < |c.lines| ==> c.ys[i] - c.ys[i - 1] == m.height(caption) + LineGap
    ensures |c.lines| > 0 ==> c.ys[|c.lines| - 1] + m.height(caption) + margin == c.pasteY
    ensures |c.lines| > 0 && margin >= 0 ==> c.ys[|c.lines| - 1] + m.height(caption) <= c.pasteY
    ensures |c.lines| > 0 ==>
      c.height == height + (c.ys[|c.lines| - 1] + m.height(caption) - c.ys[0]) + 2 * margin
    ensures |c.lines| == 0 ==> c.height == height + 2 * margin - LineGap
  {
    var lines := Wrap.WrapCaption(caption, m.width, MaxWidth(width, margin));
    var textHeight := m.height(caption);
    var n := |lines|;
    var total := BandHeight(n, textHeight);
    var step := textHeight + LineGap;
    var xs: seq<int> := [];
    var ys: seq<int> := [];
    var y := margin;
    var i := 0;
    while i < n
      invariant 0 <= i <= n
      invariant |xs| == i && |ys| == i
      invariant y == margin + i * step
      invariant forall k :: 0 <= k < i ==> ys[k] == margin + k * step
      invariant forall k :: 0 <= k < i ==> xs[k] == CenteredX(width, m.width(lines[k]))
    {
      xs := xs + [CenteredX(width, m.width(lines[i]))];
      ys := ys + [y];
      NextRow(i + 1, step);
      y := y + step;
      i := i + 1;
    }
    forall k | 1 <= k < n
      ensures ys[k] - ys[k - 1] == step
    {
      NextRow(k, step);
    }
    BandOfLines(n, textHeight);
    c := Canvas(width, height + total + 2 * margin, total + 2 * margin, lines, xs, ys);
  }
}

=== FILE: basics.dfy ===
/** Small value types and the Python sequence idioms the rest of the model relies on:
    negative-index slicing, `reversed`, and list comprehensions with a filter. */
module Basics {

  /** A value that may be absent, standing for Python's `None`. */
  datatype Option<+T> = None | Some(value: T)

  function Min(a: int, b: int): int { if a <= b then a else b }

  function Max(a: int, b: int): int { if a <= b then b else a }

  /** Python's `s[k:]` for any integer `k`: a negative `k` counts back from the
      end, and an index past either end is clamped. */
  function SuffixFrom<T>(s: seq<T>, k: int): (r: seq<T>)
    ensures |r| == if 0 <= k then |s| - Min(k, |s|) else Min(-k, |s|)
    ensures r == s[|s| - |r|..]
  {
    if 0 <= k then s[Min(k, |s|)..] else s[Max(0, |s| + k)..]
  }

  /** Python's `s[i:j]` for non-negative bounds: clamped, and empty when `j <= i`. */
  function Slice<T>(s: seq<T>, i: nat, j: nat): (r: seq<T>)
    ensures |r| == Max(0, Min(j, |s|) - Min(i, |s|))
    ensures forall k {:trigger r[k]} :: 0 <= k < |r| ==> r[k] == s[i + k]
  {
    var lo := Min(i, |s|);
    s[lo..Max(lo, Min(j, |s|))]
  }

  /** Python's `list(reversed(s))`. */
  function Reverse<T>(s: seq<T>): (r: seq<T>)
    ensures |r| == |s|
    ensures forall i :: 0 <= i < |s| ==> r[i] == s[|s| - 1 - i]
  {
    if s == [] then [] else Reverse(s[1..]) + [s[0]]
  }

  /** `a` can be obtained from `b` by deleting elements, keeping the order. */
  predicate IsSubseq<T(==)>(a: seq<T>, b: seq<T>)
    decreases |b|
  {
    if a == [] then true
    else if b == [] then false
    else if a[0] == b[0] then IsSubseq(a[1..], b[1..])
    else IsSubseq(a, b[1..])
  }

  /** Python's `[x for x in s if p(x)]`. */
  function Filter<T(==,!new)>(s: seq<T>, p: T -> bool): (r: seq<T>)
    ensures forall i :: 0 <= i < |r| ==> p(r[i])
    ensures forall x :: multiset(r)[x] == if p(x) then multiset(s)[x] else 0
    ensures IsSubseq(r, s)
  {
    if s == [] then []
    else
      assert s == [s[0]] + s[1..];
      if p(s[0]) then [s[0]] + Filter(s[1..], p) else Filter(s[1..], p)
  }
}

=== FILE: colors.dfy ===
/** The colour conversion of the interface: a colour-picker value `"#rrggbb"`
    becomes the triple `tuple(int(s[i:i+2], 16) for i in (1, 3, 5))`. */
module Colors {
  import opened Basics
  import opened Text

  datatype Rgb = Rgb(red: int, green: int, blue: int)

  predicate IsHexDigit(c: char) {
    '0' <= c <= '9' || 'a' <= c <= 'f' || 'A' <= c <= 'F'
  }

  predicate AllHexDigits(d: string) {
    forall i :: 0 <= i < |d| ==> IsHexDigit(d[i])
  }

  function DigitValue(c: char): (v: nat)
    requires IsHexDigit(c)
    ensures v < 16
  {
    if '0' <= c <= '9' then c as int - '0' as int
    else if 'a' <= c <= 'f' then c as int - 'a' as int + 10
    else c as int - 'A' as int + 10
  }

  /** The value of a string of hexadecimal digits, most significant first. */
  function HexValue(d: string): nat
    requires AllHexDigits(d)
  {
    if d == [] then 0 else 16 * HexValue(d[..|d| - 1]) + DigitValue(d[|d| - 1])
  }

  /** A base-16 integer literal as `int(u, 16)` accepts it once the whitespace
      around it is gone: an optional sign, then at least one hexadecimal digit. */
  predicate SignedHex(u: string) {
    || (u != [] && AllHexDigits(u))
    || (|u| >= 2 && (u[0] == '+' || u[0] == '-') && AllHexDigits(u[1..]))
  }

  /** U+001C to U+001F: whitespace to `str.strip()`, but not to `int`, which
      skips only ASCII space, tab, newline, vertical tab, form feed and carriage
      return (and non-ASCII whitespace, read as a space). To `int` they are
      neither whitespace nor digits, so a field holding one is never a number. */
  predicate IsInfoSeparator(c: char) {
    '\U{1C}' <= c <= '\U{1F}'
  }

  predicate NoInfoSeparator(t: string) {
    forall i :: 0 <= i < |t| ==> !IsInfoSeparator(t[i])
  }

  /** `int(t, 16)` succeeds on the field `t`. */
  predicate FieldParses(t: string) {
    SignedHex(Strip(t)) && NoInfoSeparator(t)
  }

  /** Python's `int(t, 16)` on a field of at most two characters: surrounding
      whitespace is ignored, a sign is allowed, and at least one digit must
      remain; anything else, an information separator included, raises
      `ValueError`, here `None`. Underscores and a
      `0x` prefix cannot form a valid literal in two characters. */
  function ParseHexField(t: string): (r: Option<int>)
    requires |t| <= 2
    ensures r.Some? <==> FieldParses(t)
    ensures var u := Strip(t);
      && (r.Some? && AllHexDigits(u) ==> r.value == HexValue(u))
      && (r.Some? && u[0] == '+' ==> r.value == HexValue(u[1..]))
      && (r.Some? && u[0] == '-' ==> r.value == -(HexValue(u[1..]) as int))
    ensures |t| == 2 && AllHexDigits(t) ==> r == Some(16 * DigitValue(t[0]) + DigitValue(t[1]))
    ensures t == [] ==> r == None
  {
    if |t| == 2 && AllHexDigits(t) then
      HexDigitNotSpace(t[0]);
      HexDigitNotSpace(t[1]);
      assert Strip(t) == t;
      HexPair(t);
      ParseUnsigned(t)
    else if !NoInfoSeparator(t) then None
    else
      ParseUnsigned(t)
  }

  /** The part of `int(t, 16)` after the field is known to be short. */
  function ParseUnsigned(t: string): Option<int> {
    var u := Strip(t);
    if u != [] && (u[0] == '+' || u[0] == '-') then
      var d := u[1..];
      if d != [] && AllHexDigits(d) then
        var v: int := HexValue(d);
        Some(if u[0] == '-' then -v else v)
      else None
    else if u != [] && AllHexDigits(u) then Some(HexValue(u))
    else None
  }

  lemma HexPair(t: string)
    requires |t| == 2 && AllHexDigits(t)
    ensures HexValue(t) == 16 * DigitValue(t[0]) + DigitValue(t[1])
  {
    assert HexValue(t[..1]) == DigitValue(t[0]) by {
      assert t[..1][..0] == [] && t[..1][0] == t[0];
    }
  }

  lemma HexSingle(c: char)
    requires IsHexDigit(c)
    ensures HexValue([c]) == DigitValue(c)
  {
    assert [c][..0] == [];
  }

  lemma HexDigitNotSpace(c: char)
    requires IsHexDigit(c)
    ensures !IsSpace(c) && c != '+' && c != '-'
  {
  }

  /** A value as the colour picker produces it. */
  predicate IsColorCode(s: string) {
    |s| == 7 && s[0] == '#' && AllHexDigits(s[1..])
  }

  predicate InByteRange(c: Rgb) {
    0 <= c.red < 256 && 0 <= c.green < 256 && 0 <= c.blue < 256
  }

  /** The conversion of `main.py`. The first character is never looked at, and a
      string too short for a field, or a field that is not a number, fails. */
  function HexToRgb(s: string): (r: Option<Rgb>)
    ensures IsColorCode(s) ==> r.Some? && InByteRange(r.value)
    ensures IsColorCode(s) ==> r == Some(Rgb(CodeByte(s, 1), CodeByte(s, 3), CodeByte(s, 5)))
    ensures r.Some? <==> FieldParses(Slice(s, 1, 3)) && FieldParses(Slice(s, 3, 5)) && FieldParses(Slice(s, 5, 7))
    ensures |s| <= 5 ==> r == None
  {
    if IsColorCode(s) then
      CodeField(s, 1);
      CodeField(s, 3);
      CodeField(s, 5);
      Convert(s)
    else
      Convert(s)
  }

  /** The byte written as the two digits at `s[i]` and `s[i + 1]`. */
  function CodeByte(s: string, i: nat): (b: int)
    requires IsColorCode(s) && 1 <= i <= 5
    ensures 0 <= b < 256
  {
    assert s[i] == s[1..][i - 1] && s[i + 1] == s[1..][i];
    16 * DigitValue(s[i]) + DigitValue(s[i + 1])
  }

  /** Each two-digit field of a colour code is read as a byte. */
  lemma CodeField(s: string, i: nat)
    requires IsColorCode(s) && 1 <= i <= 5
    ensures ParseHexField(Slice(s, i, i + 2)) == Some(CodeByte(s, i))
  {
    var hi, lo := s[i], s[i + 1];
    assert IsHexDigit(hi) && IsHexDigit(lo) by {
      assert hi == s[1..][i - 1] && lo == s[1..][i];
    }
    calc {
      ParseHexField(Slice(s, i, i + 2));
      { assert Slice(s, i, i + 2) == [hi, lo]; }
      ParseHexField([hi, lo]);
      { PairField(hi, lo); }
      Some(16 * DigitValue(hi) + DigitValue(lo));
      Some(CodeByte(s, i));
    }
  }

  function Convert(s: string): Option<Rgb> {
    var red := ParseHexField(Slice(s, 1, 3));
    var green := ParseHexField(Slice(s, 3, 5));
    var blue := ParseHexField(Slice(s, 5, 7));
    if red.Some? && green.Some? && blue.Some? then Some(Rgb(red.value, green.value, blue.value)) else None
  }

  /** The lower-case hexadecimal digit of a value below 16. */
  function HexChar(v: nat): (c: char)
    requires v < 16
    ensures IsHexDigit(c) && DigitValue(c) == v
    ensures !('A' <= c <= 'F')
  {
    if v < 10 then ('0' as int + v) as char else ('a' as int + v - 10) as char
  }

  /** The colour code of a triple, as the colour picker writes it. */
  function ToColorCode(c: Rgb): (s: string)
    requires InByteRange(c)
    ensures IsColorCode(s)
  {
    ['#', HexChar(c.red / 16), HexChar(c.red % 16), HexChar(c.green / 16), HexChar(c.green % 16),
     HexChar(c.blue / 16), HexChar(c.blue % 16)]
  }

  /** The two digits written for a byte read back as that byte. */
  lemma ByteDigits(v: int)
    requires 0 <= v < 256
    ensures 16 * DigitValue(HexChar(v / 16)) + DigitValue(HexChar(v % 16)) == v
  {
  }

  /** Converting the colour code of a triple gives the triple back. */
  lemma ColorCodeRoundTrip(c: Rgb)
    requires InByteRange(c)
    ensures HexToRgb(ToColorCode(c)) == Some(c)
  {
    var s := ToColorCode(c);
    assert CodeByte(s, 1) == c.red by { ByteDigits(c.red); }
    assert CodeByte(s, 3) == c.green by { ByteDigits(c.green); }
    assert CodeByte(s, 5) == c.blue by { ByteDigits(c.blue); }
  }

  /** The digits written for the byte read from two lower-case digits are those digits. */
  lemma DigitsOfByte(s: string, i: nat)
    requires IsColorCode(s) && 1 <= i <= 5
    requires !('A' <= s[i] <= 'F') && !('A' <= s[i + 1] <= 'F')
    ensures HexChar(CodeByte(s, i) / 16) == s[i] && HexChar(CodeByte(s, i) % 16) == s[i + 1]
  {
    assert s[i] == s[1..][i - 1] && s[i + 1] == s[1..][i];
    assert CodeByte(s, i) / 16 == DigitValue(s[i]);
    assert CodeByte(s, i) % 16 == DigitValue(s[i + 1]);
  }

  /** A lower-case colour code is recovered from the triple it converts to. */
  lemma ConvertedCodeRoundTrip(s: string)
    requires IsColorCode(s) && forall i :: 1 <= i < 7 ==> !('A' <= s[i] <= 'F')
    ensures HexToRgb(s).Some? && ToColorCode(HexToRgb(s).value) == s
  {
    DigitsOfByte(s, 1);
    DigitsOfByte(s, 3);
    DigitsOfByte(s, 5);
    var t := ToColorCode(Rgb(CodeByte(s, 1), CodeByte(s, 3), CodeByte(s, 5)));
    assert forall i :: 0 <= i < 7 ==> t[i] == s[i];
  }

  /** Two digits read as the byte they spell. */
  lemma PairField(hi: char, lo: char)
    requires IsHexDigit(hi) && IsHexDigit(lo)
    ensures ParseHexField([hi, lo]) == Some(16 * DigitValue(hi) + DigitValue(lo))
  {
    assert AllHexDigits([hi, lo]);
  }

  /** A minus sign and one digit read as the negated digit. */
  lemma NegativeField(c: char)
    requires IsHexDigit(c)
    ensures ParseHexField(['-', c]) == Some(-(DigitValue(c) as int))
  {
    var t := ['-', c];
    HexDigitNotSpace(c);
    assert !IsSpace('-');
    assert Strip(t) == t;
    assert t[1..] == [c];
    HexSingle(c);
  }

  /** One digit reads as its value. */
  lemma SingleField(c: char)
    requires IsHexDigit(c)
    ensures ParseHexField([c]) == Some(DigitValue(c))
  {
    HexDigitNotSpace(c);
    assert Strip([c]) == [c];
    HexSingle(c);
  }

  /** The conversion reads the three fields and succeeds when all three do. */
  lemma ConvertFields(s: string)
    ensures var red, green, blue := ParseHexField(Slice(s, 1, 3)), ParseHexField(Slice(s, 3, 5)), ParseHexField(Slice(s, 5, 7));
      HexToRgb(s) == if red.Some? && green.Some? && blue.Some? then Some(Rgb(red.value, green.value, blue.value)) else None
  {
  }

  /** A field that is not a number makes the conversion fail: `"#gg0000"` raises
      `ValueError` in Python. */
  lemma NonHexCode()
    ensures HexToRgb("#gg0000") == None
  {
    var s := "#gg0000";
    assert Slice(s, 1, 3) == "gg";
    assert Strip("gg") == "gg";
    assert !IsHexDigit('g');
    assert !AllHexDigits("gg");
  }

  /** An information separator next to a digit is not trimmed: `"#1\x1c0000"`
      raises `ValueError` in Python although `"1\x1c".strip()` is `"1"`. */
  lemma SeparatorField()
    ensures ParseHexField(['1', '\U{1C}']) == None
    ensures HexToRgb(['#', '1', '\U{1C}', '0', '0', '0', '0']) == None
  {
    var f := ['1', '\U{1C}'];
    assert IsInfoSeparator(f[1]);
    assert Slice(['#', '1', '\U{1C}', '0', '0', '0', '0'], 1, 3) == f;
  }

  /** A signed field parses as a negative component: `"#-1-1-1"` gives (-1, -1, -1),
      so the components are bytes only for well-formed codes. */
  lemma SignedFields()
    ensures HexToRgb("#-1-1-1") == Some(Rgb(-1, -1, -1))
  {
    var s := "#-1-1-1";
    assert Slice(s, 1, 3) == ['-', '1'] && Slice(s, 3, 5) == ['-', '1'] && Slice(s, 5, 7) == ['-', '1'];
    NegativeField('1');
    ConvertFields(s);
  }

  /** A short code still converts: the missing half of the last field is dropped
      by the slice, so `"#12345"` gives (0x12, 0x34, 5). */
  lemma ShortCode()
    ensures HexToRgb("#12345") == Some(Rgb(18, 52, 5))
  {
    var s := "#12345";
    assert Slice(s, 1, 3) == ['1', '2'] && Slice(s, 3, 5) == ['3', '4'] && Slice(s, 5, 7) == ['5'];
    PairField('1', '2');
    PairField('3', '4');
    SingleField('5');
    ConvertFields(s);
  }
}

=== FILE: fonts.dfy ===
/** The font menu of the interface. Each font file found becomes an entry whose
    display name is the file name without directory and extension, with hyphens
    and underscores turned into spaces; the menu lists "Default (Streamlit)"
    first and the fonts after it in ascending name order. The directory listing
    itself is an input: the paths, in the order the listing returned them. */
module Fonts {
  import opened Basics
  import opened Text

  const DefaultName := "Default (Streamlit)"

  /** `os.path.basename`: what follows the last '/'. */
  function Basename(path: string): (b: string)
    ensures |b| <= |path| && path[|path| - |b|..] == b
    ensures forall i :: 0 <= i < |b| ==> b[i] != '/'
    ensures |b| < |path| ==> path[|path| - |b| - 1] == '/'
  {
    if path == [] || path[|path| - 1] == '/' then []
    else Basename(path[..|path| - 1]) + [path[|path| - 1]]
  }

  /** Some character before position `d` of `b` is not a dot. */
  predicate HasStemBefore(b: string, d: nat)
    requires d <= |b|
  {
    exists k :: 0 <= k < d && b[k] != '.'
  }

  /** Index of the last '.' of `b`, if any. */
  function LastDot(b: string): (r: Option<nat>)
    ensures r.Some? ==> r.value < |b| && b[r.value] == '.' && forall i :: r.value < i < |b| ==> b[i] != '.'
    ensures r.None? ==> forall i :: 0 <= i < |b| ==> b[i] != '.'
  {
    if b == [] then None
    else if b[|b| - 1] == '.' then Some(|b| - 1)
    else LastDot(b[..|b| - 1])
  }

  /** `os.path.splitext(b)[0]` for a name without '/': the text before the last
      dot, unless only dots precede that dot (a leading-dot name has no extension). */
  function StripExtension(b: string): (root: string)
    ensures |root| <= |b| && b[..|root|] == root
    ensures |root| < |b| ==>
      && b[|root|] == '.'
      && (forall i :: |root| < i < |b| ==> b[i] != '.')
      && HasStemBefore(b, |root|)
    ensures forall d :: 0 <= d < |b| && b[d] == '.' && HasStemBefore(b, d) ==> |root| < |b|
  {
    match LastDot(b)
    case None => b
    case Some(d) =>
      if HasStemBefore(b, d) then b[..d] else
        assert forall e :: 0 <= e < |b| && b[e] == '.' && HasStemBefore(b, e) ==> e <= d;
        b
  }

  /** Hyphens and underscores become spaces. */
  function Readable(name: string): (r: string)
    ensures |r| == |name|
    ensures forall i :: 0 <= i < |r| ==> r[i] != '-' && r[i] != '_'
    ensures forall i :: 0 <= i < |r| && (name[i] == '-' || name[i] == '_') ==> r[i] == ' '
    ensures forall i :: 0 <= i < |r| && name[i] != '-' && name[i] != '_' ==> r[i] == name[i]
  {
    seq(|name|, i requires 0 <= i < |name| => if name[i] == '-' || name[i] == '_' then ' ' else name[i])
  }

  /** The name a font file is listed under: its base name without extension,
      hyphens and underscores read as spaces. It holds no slash, hyphen or
      underscore, and is never longer than the path. */
  function DisplayName(path: string): (r: string)
    ensures |r| <= |path|
    ensures forall i :: 0 <= i < |r| ==> r[i] != '/' && r[i] != '-' && r[i] != '_'
  {
    Readable(StripExtension(Basename(path)))
  }

  /** One menu entry: a display name and the font file, `None` for the default. */
  datatype Choice = Choice(name: string, path: Option<string>)

  /** The names of an insertion-ordered dict. */
  function Keys(d: seq<Choice>): (ks: seq<string>)
    ensures |ks| == |d|
    ensures forall i :: 0 <= i < |d| ==> ks[i] == d[i].name
  {
    if d == [] then [] else [d[0].name] + Keys(d[1..])
  }

  predicate Distinct(ks: seq<string>) {
    forall i, j :: 0 <= i < j < |ks| ==> ks[i] != ks[j]
  }

  predicate StrictlySorted(ks: seq<string>) {
    forall i, j :: 0 <= i < j < |ks| ==> LexLess(ks[i], ks[j])
  }

  /** `d[name]` when present. */
  function Find(d: seq<Choice>, name: string): (r: Option<Option<string>>)
    ensures r.Some? <==> name in Keys(d)
  {
    if d == [] then None
    else if d[0].name == name then Some(d[0].path)
    else
      assert Keys(d) == [d[0].name] + Keys(d[1..]);
      Find(d[1..], name)
  }

  /** `d[name] = path`: an existing entry keeps its position and takes the new
      value; a new name is appended. */
  function Assign(d: seq<Choice>, name: string, path: Option<string>): seq<Choice> {
    if d == [] then [Choice(name, path)]
    else if d[0].name == name then [Choice(name, path)] + d[1..]
    else [d[0]] + Assign(d[1..], name, path)
  }

  /** The loop that fills `fonts_dict`, one path after another, each under the
      name `nameOf` gives it. */
  function Collect(paths: seq<string>, nameOf: string -> string): seq<Choice> {
    if paths == [] then []
    else
      var p := paths[|paths| - 1];
      Assign(Collect(paths[..|paths| - 1], nameOf), nameOf(p), Some(p))
  }

  /** Insertion of one entry into a list ordered by name. */
  function Insert(x: Choice, s: seq<Choice>): seq<Choice> {
    if s == [] then [x]
    else if LexLess(x.name, s[0].name) then [x] + s
    else [s[0]] + Insert(x, s[1..])
  }

  /** `sorted(fonts_dict.items())`: names are distinct, so the order is by name. */
  function Sort(d: seq<Choice>): seq<Choice> {
    if d == [] then [] else Insert(d[0], Sort(d[1..]))
  }

  /** `d.update(items)`: assign each item in turn. */
  function UpdateAll(d: seq<Choice>, items: seq<Choice>): seq<Choice>
    decreases |items|
  {
    if items == [] then d else UpdateAll(Assign(d, items[0].name, items[0].path), items[1..])
  }

  /** `get_available_fonts`, given the font file paths the listing returned. */
  function AvailableFonts(paths: seq<string>): seq<Choice> {
    UpdateAll([Choice(DefaultName, None)], Sort(Collect(paths, DisplayName)))
  }

  /** The last path in the listing that has the display name `name`. */
  function LastNamed(paths: seq<string>, nameOf: string -> string, name: string): Option<string> {
    if paths == [] then None
    else if nameOf(paths[|paths| - 1]) == name then Some(paths[|paths| - 1])
    else LastNamed(paths[..|paths| - 1], nameOf, name)
  }

  /** `LastNamed` finds nothing exactly when no path has the name, and otherwise
      a path with that name after which no other path has it. */
  lemma {:induction false} LastNamedSpec(paths: seq<string>, nameOf: string -> string, name: string)
    ensures LastNamed(paths, nameOf, name).None? <==> forall i :: 0 <= i < |paths| ==> nameOf(paths[i]) != name
    ensures LastNamed(paths, nameOf, name).Some? ==>
      exists i :: 0 <= i < |paths| && paths[i] == LastNamed(paths, nameOf, name).value && nameOf(paths[i]) == name
        && forall j :: i < j < |paths| ==> nameOf(paths[j]) != name
    decreases |paths|
  {
    if paths != [] {
      var last := |paths| - 1;
      var prefix := paths[..last];
      if nameOf(paths[last]) != name {
        LastNamedSpec(prefix, nameOf, name);
        assert forall i :: 0 <= i < |prefix| ==> prefix[i] == paths[i];
        if LastNamed(prefix, nameOf, name).Some? {
          var i :| 0 <= i < |prefix| && prefix[i] == LastNamed(prefix, nameOf, name).value && nameOf(prefix[i]) == name
            && forall j :: i < j < |prefix| ==> nameOf(prefix[j]) != name;
          assert paths[i] == prefix[i];
        }
      }
    }
  }

  /** The entry `Find` reports for a name `LastNamed` resolves. */
  function AsEntry(r: Option<string>): Option<Option<string>> {
    if r.Some? then Some(Some(r.value)) else None
  }

  lemma KeysCons(x: Choice, d: seq<Choice>)
    ensures Keys([x] + d) == [x.name] + Keys(d)
  {
    assert ([x] + d)[1..] == d;
  }

  lemma KeysTail(d: seq<Choice>)
    requires d != []
    ensures Keys(d[1..]) == Keys(d)[1..]
  {
  }

  /** A strictly sorted sequence stays so without its head, and its head does not recur. */
  lemma SortedTail(ks: seq<string>)
    requires StrictlySorted(ks) && ks != []
    ensures StrictlySorted(ks[1..]) && ks[0] !in ks[1..]
  {
    forall i | 0 <= i < |ks| - 1
      ensures ks[1..][i] != ks[0]
    {
      assert LexLess(ks[0], ks[i + 1]);
      LexLessIrreflexive(ks[0]);
    }
  }

  lemma SortedDistinct(ks: seq<string>)
    requires StrictlySorted(ks)
    ensures Distinct(ks)
  {
    forall i, j | 0 <= i < j < |ks|
      ensures ks[i] != ks[j]
    {
      LexLessIrreflexive(ks[i]);
    }
  }

  /** Without its first entry a dict still has distinct names, none of them the first. */
  lemma DistinctTail(d: seq<Choice>)
    requires d != [] && Distinct(Keys(d))
    ensures Distinct(Keys(d[1..])) && d[0].name !in Keys(d[1..])
  {
    KeysTail(d);
    var ks := Keys(d);
    forall i | 0 <= i < |ks| - 1
      ensures ks[1..][i] != ks[0]
    {
      assert ks[i + 1] != ks[0];
    }
    forall i, j | 0 <= i < j < |ks| - 1
      ensures ks[1..][i] != ks[1..][j]
    {
      assert ks[i + 1] != ks[j + 1];
    }
  }

  lemma {:induction false} AssignKeys(d: seq<Choice>, name: string, path: Option<string>)
    ensures Keys(Assign(d, name, path)) == if name in Keys(d) then Keys(d) else Keys(d) + [name]
    decreases |d|
  {
    if d == [] {
    } else if d[0].name == name {
      KeysCons(Choice(name, path), d[1..]);
      KeysCons(d[0], d[1..]);
      assert d == [d[0]] + d[1..];
    } else {
      AssignKeys(d[1..], name, path);
      KeysCons(d[0], Assign(d[1..], name, path));
      KeysCons(d[0], d[1..]);
      assert d == [d[0]] + d[1..];
    }
  }

  lemma {:induction false} AssignFind(d: seq<Choice>, name: string, path: Option<string>, n: string)
    ensures Find(Assign(d, name, path), n) == if n == name then Some(path) else Find(d, n)
    decreases |d|
  {
    if d != [] && d[0].name != name {
      AssignFind(d[1..], name, path, n);
      assert ([d[0]] + Assign(d[1..], name, path))[1..] == Assign(d[1..], name, path);
    } else if d != [] {
      assert ([Choice(name, path)] + d[1..])[1..] == d[1..];
    }
  }

  /** The names of `fonts_dict` are distinct, and each one maps to the last path
      listed under it. */
  lemma {:induction false} CollectSpec(paths: seq<string>, nameOf: string -> string)
    ensures Distinct(Keys(Collect(paths, nameOf)))
    ensures forall n :: Find(Collect(paths, nameOf), n) == AsEntry(LastNamed(paths, nameOf, n))
    decreases |paths|
  {
    if paths != [] {
      var p := paths[|paths| - 1];
      var prefix := paths[..|paths| - 1];
      CollectSpec(prefix, nameOf);
      AssignKeys(Collect(prefix, nameOf), nameOf(p), Some(p));
      forall n
        ensures Find(Collect(paths, nameOf), n) == AsEntry(LastNamed(paths, nameOf, n))
      {
        AssignFind(Collect(prefix, nameOf), nameOf(p), Some(p), n);
      }
    }
  }

  /** Inserting an entry with a new name adds that name and its value, and nothing else. */
  lemma {:induction false} InsertKeys(x: Choice, s: seq<Choice>)
    requires x.name !in Keys(s)
    ensures forall n :: n in Keys(Insert(x, s)) <==> n == x.name || n in Keys(s)
    ensures forall n :: Find(Insert(x, s), n) == if n == x.name then Some(x.path) else Find(s, n)
    decreases |s|
  {
    if s == [] {
    } else if LexLess(x.name, s[0].name) {
      KeysCons(x, s);
      assert ([x] + s)[1..] == s;
    } else {
      var t := Insert(x, s[1..]);
      KeysTail(s);
      InsertKeys(x, s[1..]);
      KeysCons(s[0], t);
      assert ([s[0]] + t)[1..] == t;
      assert Keys(s) == [s[0].name] + Keys(s[1..]);
    }
  }

  /** A name below every name of an ascending list can go in front of it. */
  lemma PrependSorted(k: string, ks: seq<string>)
    requires StrictlySorted(ks) && forall j :: 0 <= j < |ks| ==> LexLess(k, ks[j])
    ensures StrictlySorted([k] + ks)
  {
    assert forall i :: 0 < i <= |ks| ==> ([k] + ks)[i] == ks[i - 1];
  }

  /** A name below the head of an ascending list is below all of it. */
  lemma BelowHead(k: string, ks: seq<string>)
    requires StrictlySorted(ks) && ks != [] && LexLess(k, ks[0])
    ensures forall j :: 0 <= j < |ks| ==> LexLess(k, ks[j])
  {
    forall j | 0 < j < |ks|
      ensures LexLess(k, ks[j])
    {
      LexLessTransitive(k, ks[0], ks[j]);
    }
  }

  /** Inserting into a list ordered by name keeps it ordered. */
  lemma {:induction false} InsertSorted(x: Choice, s: seq<Choice>)
    requires x.name !in Keys(s) && StrictlySorted(Keys(s))
    ensures StrictlySorted(Keys(Insert(x, s)))
    decreases |s|
  {
    if s == [] {
    } else if LexLess(x.name, s[0].name) {
      BelowHead(x.name, Keys(s));
      PrependSorted(x.name, Keys(s));
      KeysCons(x, s);
    } else {
      var t := Insert(x, s[1..]);
      KeysTail(s);
      SortedTail(Keys(s));
      InsertKeys(x, s[1..]);
      InsertSorted(x, s[1..]);
      LexLessTotal(x.name, s[0].name);
      forall j | 0 <= j < |Keys(t)|
        ensures LexLess(s[0].name, Keys(t)[j])
      {
        var n := Keys(t)[j];
        assert n in Keys(t);
        if n != x.name {
          var k :| 0 <= k < |Keys(s[1..])| && Keys(s[1..])[k] == n;
          assert Keys(s)[k + 1] == n;
        }
      }
      PrependSorted(s[0].name, Keys(t));
      KeysCons(s[0], t);
    }
  }

  /** Sorting keeps every entry and orders the names strictly. */
  lemma {:induction false} SortSpec(d: seq<Choice>)
    requires Distinct(Keys(d))
    ensures StrictlySorted(Keys(Sort(d)))
    ensures forall n :: n in Keys(Sort(d)) <==> n in Keys(d)
    ensures forall n :: Find(Sort(d), n) == Find(d, n)
    decreases |d|
  {
    if d != [] {
      DistinctTail(d);
      SortSpec(d[1..]);
      InsertKeys(d[0], Sort(d[1..]));
      InsertSorted(d[0], Sort(d[1..]));
      assert Keys(d) == [d[0].name] + Keys(d[1..]);
    }
  }

  /** Every name in `d` after the first is below `name`. */
  predicate BelowName(d: seq<Choice>, name: string) {
    forall i :: 1 <= i < |d| ==> LexLess(d[i].name, name)
  }

  /** Every name in `d` after the first is below every name in `items`. */
  predicate Below(d: seq<Choice>, items: seq<Choice>) {
    forall j :: 0 <= j < |items| ==> BelowName(d, items[j].name)
  }

  /** The shape of the menu while it is built: the default first, then distinct
      names in ascending order. */
  predicate MenuShape(d: seq<Choice>) {
    && d != [] && d[0].name == DefaultName
    && Distinct(Keys(d)) && StrictlySorted(Keys(d[1..]))
  }

  /** The names a dict with shape `MenuShape` lists after the default, in order. */
  lemma MenuNamesAfterDefault(d: seq<Choice>)
    requires d != []
    ensures forall i :: 0 <= i < |d| - 1 ==> Keys(d[1..])[i] == d[i + 1].name
  {
  }

  /** Assigning a name above all names after the default keeps the shape, and
      the names after the default stay at or below it. */
  lemma AssignAbove(d: seq<Choice>, x: Choice)
    requires MenuShape(d) && BelowName(d, x.name)
    ensures var d' := Assign(d, x.name, x.path);
      && MenuShape(d')
      && forall i :: 1 <= i < |d'| ==> d'[i].name == x.name || LexLess(d'[i].name, x.name)
  {
    AssignKeys(d, x.name, x.path);
    if x.name in Keys(d) {
      AssignExisting(d, x);
    } else {
      AssignNew(d, x);
    }
  }

  /** The only name of the menu that an item above it can meet is the default,
      whose value it replaces in place. */
  lemma AssignExisting(d: seq<Choice>, x: Choice)
    requires MenuShape(d) && BelowName(d, x.name) && x.name in Keys(d)
    requires Keys(Assign(d, x.name, x.path)) == Keys(d)
    ensures var d' := Assign(d, x.name, x.path);
      && MenuShape(d')
      && forall i :: 1 <= i < |d'| ==> LexLess(d'[i].name, x.name)
  {
    var d' := Assign(d, x.name, x.path);
    KeysTail(d);
    KeysTail(d');
    assert d'[0].name == Keys(d)[0];
    forall i | 1 <= i < |d'|
      ensures LexLess(d'[i].name, x.name)
    {
      assert d'[i].name == Keys(d)[i] == d[i].name;
    }
  }

  /** A name above every name of an ascending list can go at its end. */
  lemma AppendSorted(ks: seq<string>, k: string)
    requires StrictlySorted(ks) && forall i :: 0 <= i < |ks| ==> LexLess(ks[i], k)
    ensures StrictlySorted(ks + [k])
  {
  }

  lemma AppendDistinct(ks: seq<string>, k: string)
    requires Distinct(ks) && k !in ks
    ensures Distinct(ks + [k])
  {
  }

  /** A name not yet in the menu is appended after all the others. */
  lemma AssignNew(d: seq<Choice>, x: Choice)
    requires MenuShape(d) && BelowName(d, x.name) && x.name !in Keys(d)
    requires Keys(Assign(d, x.name, x.path)) == Keys(d) + [x.name]
    ensures var d' := Assign(d, x.name, x.path);
      && MenuShape(d')
      && forall i :: 1 <= i < |d'| ==> d'[i].name == x.name || LexLess(d'[i].name, x.name)
  {
    var d' := Assign(d, x.name, x.path);
    assert d'[0].name == DefaultName by {
      assert d'[0].name == Keys(d')[0] == Keys(d)[0];
    }
    assert Distinct(Keys(d')) by {
      AppendDistinct(Keys(d), x.name);
    }
    assert StrictlySorted(Keys(d'[1..])) by {
      KeysTail(d);
      KeysTail(d');
      MenuNamesAfterDefault(d);
      AppendSorted(Keys(d[1..]), x.name);
      assert Keys(d'[1..]) == Keys(d[1..]) + [x.name];
    }
    forall i | 1 <= i < |d'|
      ensures d'[i].name == x.name || LexLess(d'[i].name, x.name)
    {
      assert d'[i].name == Keys(d')[i];
    }
  }

  /** Updating a menu in shape with names in ascending order above it: the
      default stays first, the rest stay ascending, and a name takes its value
      from the items when they have it. */
  lemma {:induction false} UpdateAllSpec(d: seq<Choice>, items: seq<Choice>)
    requires MenuShape(d) && StrictlySorted(Keys(items)) && Below(d, items)
    ensures var r := UpdateAll(d, items);
      && MenuShape(r)
      && (forall n :: n in Keys(r) <==> n in Keys(d) || n in Keys(items))
      && (forall n :: Find(r, n) == if n in Keys(items) then Find(items, n) else Find(d, n))
    decreases |items|
  {
    if items != [] {
      var x := items[0];
      var rest := items[1..];
      var d' := Assign(d, x.name, x.path);
      assert BelowName(d, x.name);
      AssignAbove(d, x);
      assert StrictlySorted(Keys(rest)) && x.name !in Keys(rest) by {
        KeysTail(items);
        SortedTail(Keys(items));
      }
      assert Below(d', rest) by {
        forall j | 0 <= j < |rest|
          ensures BelowName(d', rest[j].name)
        {
          assert LexLess(Keys(items)[0], Keys(items)[j + 1]);
          forall i | 1 <= i < |d'|
            ensures LexLess(d'[i].name, rest[j].name)
          {
            if d'[i].name != x.name {
              LexLessTransitive(d'[i].name, x.name, rest[j].name);
            }
          }
        }
      }
      UpdateAllSpec(d', rest);
      assert forall n :: n in Keys(d') <==> n in Keys(d) || n == x.name by {
        AssignKeys(d, x.name, x.path);
      }
      assert Keys(items) == [x.name] + Keys(rest);
      forall n
        ensures Find(UpdateAll(d, items), n) == if n in Keys(items) then Find(items, n) else Find(d, n)
      {
        AssignFind(d, x.name, x.path, n);
      }
    }
  }

  /** In a dict with distinct names, looking up an entry's name finds that entry. */
  lemma {:induction false} FindAt(d: seq<Choice>, i: nat)
    requires Distinct(Keys(d)) && i < |d|
    ensures Find(d, d[i].name) == Some(d[i].path)
    decreases i
  {
    if i > 0 {
      DistinctTail(d);
      assert Keys(d)[0] != Keys(d)[i];
      FindAt(d[1..], i - 1);
    }
  }

  /** The menu has the shape `MenuShape` describes, and its names and values are
      those of the collected dict, with the default's kept when no file claims it. */
  lemma MenuBuilt(paths: seq<string>)
    ensures var r := AvailableFonts(paths);
      && MenuShape(r)
      && (forall n :: n in Keys(r) <==> n == DefaultName || LastNamed(paths, DisplayName, n).Some?)
      && (forall n :: n in Keys(r) ==> Find(r, n) == Some(LastNamed(paths, DisplayName, n)))
  {
    var c := Collect(paths, DisplayName);
    CollectSpec(paths, DisplayName);
    SortSpec(c);
    var d := [Choice(DefaultName, None)];
    assert Keys(d[1..]) == [];
    UpdateAllSpec(d, Sort(c));
    assert forall n :: n in Keys(c) <==> LastNamed(paths, DisplayName, n).Some?;
  }

  /** The font menu lists "Default (Streamlit)" first and the display names after
      it in strictly ascending order, so each name once and the default only first. */
  lemma FontMenuOrder(paths: seq<string>)
    ensures var r := AvailableFonts(paths);
      && r != [] && r[0].name == DefaultName
      && StrictlySorted(Keys(r[1..]))
      && (forall i :: 1 <= i < |r| ==> r[i].name != DefaultName)
  {
    MenuBuilt(paths);
    var r := AvailableFonts(paths);
    forall i | 1 <= i < |r|
      ensures r[i].name != DefaultName
    {
      assert Keys(r)[0] != Keys(r)[i];
    }
  }

  /** The font menu names the default and every display name of a listed file,
      and nothing else; each name selects the last file listed under it, and a
      file named like the default takes the default's place. */
  lemma FontMenuEntries(paths: seq<string>)
    ensures var r := AvailableFonts(paths);
      && (forall n :: n in Keys(r) <==> n == DefaultName || LastNamed(paths, DisplayName, n).Some?)
      && (forall i :: 0 <= i < |r| ==> r[i].path == LastNamed(paths, DisplayName, r[i].name))
  {
    MenuBuilt(paths);
    var r := AvailableFonts(paths);
    forall i | 0 <= i < |r|
      ensures r[i].path == LastNamed(paths, DisplayName, r[i].name)
    {
      FindAt(r, i);
      assert r[i].name in Keys(r);
    }
  }

  /** A typical font file: directory and extension dropped, separators turned into spaces. */
  lemma DisplayNameTypical()
    ensures DisplayName("fonts/Open_Sans-Bold.ttf") == "Open Sans Bold"
  {
    BasenameTypical();
    StripExtensionTypical();
    ReadableTypical();
  }

  lemma BasenameTypical()
    ensures Basename("fonts/Open_Sans-Bold.ttf") == "Open_Sans-Bold.ttf"
  {
    var q := "fonts/Open_Sans-Bold.ttf";
    assert q[5] == '/' && forall i :: 5 < i < |q| ==> q[i] != '/';
    assert q[6..] == "Open_Sans-Bold.ttf";
  }

  lemma StripExtensionTypical()
    ensures StripExtension("Open_Sans-Bold.ttf") == "Open_Sans-Bold"
  {
    var b := "Open_Sans-Bold.ttf";
    assert b[14] == '.' && forall i :: 0 <= i < |b| && i != 14 ==> b[i] != '.';
    assert b[0] != '.';
    assert b[..14] == "Open_Sans-Bold";
  }

  lemma ReadableTypical()
    ensures Readable("Open_Sans-Bold") == "Open Sans Bold"
  {
    var root := "Open_Sans-Bold";
    var r := Readable(root);
    assert root[4] == '_' && root[9] == '-';
    assert forall i :: 0 <= i < |root| && i != 4 && i != 9 ==> root[i] != '-' && root[i] != '_';
    assert forall i :: 0 <= i < |root| && i != 4 && i != 9 ==> r[i] == root[i];
  }

  /** `splitext` removes nothing from a name whose only dot leads it, such as
      ".ttf": a leading dot does not start an extension. */
  lemma StripExtensionDotOnly()
    ensures StripExtension(".ttf") == ".ttf"
  {
    var e := ".ttf";
    assert e[0] == '.' && forall i :: 0 < i < |e| ==> e[i] != '.';
  }
}

=== FILE: history.dfy ===
/** The caption history store: a list of interaction records kept in a metadata
    file, and a chat-message history with two messages per interaction, kept
    either in a file of its own or in memory. Both files are modelled by their
    contents; a missing metadata file reads as the empty list. */
module History {
  import opened Basics

  /** One record of the metadata file. */
  datatype Entry = Entry(timestamp: string, imageName: string, model: string, caption: string)

  datatype Role = Human | Ai

  /** A chat message with the metadata it carries in `additional_kwargs`. */
  datatype Message = Message(role: Role, content: string, imageName: string, model: string, timestamp: string)

  /** `fileBacked`: the chat history is a `FileChatMessageHistory` rather than an
      in-memory one. `metadata`: what the metadata file holds. `messages`: the
      chat history. `chatFileGone`: `clear_history` has removed the chat-history
      file of a file-backed store. */
  datatype Store = Store(fileBacked: bool, metadata: seq<Entry>, messages: seq<Message>, chatFileGone: bool)

  /** Only a file-backed store has a chat-history file to lose. */
  predicate Consistent(s: Store) {
    s.chatFileGone ==> s.fileBacked
  }

  /** The human message written when an interaction is added. */
  function AddPrompt(imageName: string, model: string): string {
    "Generate caption for " + imageName + " using " + model + "."
  }

  /** The human message rebuilt from a stored record: the same text without the final period. */
  function ReloadPrompt(imageName: string, model: string): string {
    "Generate caption for " + imageName + " using " + model
  }

  /** The human and AI messages for one interaction. */
  function Exchange(e: Entry, prompt: string): seq<Message> {
    [Message(Human, prompt, e.imageName, e.model, e.timestamp),
     Message(Ai, e.caption, e.imageName, e.model, e.timestamp)]
  }

  /** Python truthiness of the optional timestamp argument: `None` and `""` are false. */
  predicate Truthy(timestamp: Option<string>) {
    timestamp.Some? && timestamp.value != ""
  }

  /** `get_history`: the records of the metadata file, oldest first. */
  function GetHistory(s: Store): seq<Entry> {
    s.metadata
  }

  /** `save_metadata`: read the records, append one, write them back. */
  function SaveMetadata(s: Store, e: Entry): (r: Store)
    ensures |GetHistory(r)| == |GetHistory(s)| + 1
    ensures GetHistory(r)[..|GetHistory(s)|] == GetHistory(s)
    ensures GetHistory(r)[|GetHistory(s)|] == e
    ensures r.messages == s.messages && r.fileBacked == s.fileBacked && r.chatFileGone == s.chatFileGone
  {
    s.(metadata := GetHistory(s) + [e])
  }

  /** `add_interaction`. The whole body sits under `if not timestamp:`, so a
      caller-supplied timestamp makes it do nothing; otherwise the record is
      stamped with `now`, the clock reading. A file-backed chat history reads
      its file before it writes a message, so once `clear_history` has removed
      that file the first `add_message` raises `FileNotFoundError`, here `None`,
      before anything is saved. */
  function AddInteraction(s: Store, imageName: string, model: string, caption: string,
                          timestamp: Option<string>, now: string): (r: Option<Store>)
    ensures Truthy(timestamp) ==> r == Some(s)
    ensures !Truthy(timestamp) ==> (r.None? <==> s.chatFileGone)
    ensures !Truthy(timestamp) && r.Some? ==>
      && |r.value.metadata| == |s.metadata| + 1
      && r.value.metadata[..|s.metadata|] == s.metadata
      && r.value.metadata[|s.metadata|] == Entry(now, imageName, model, caption)
    ensures !Truthy(timestamp) && r.Some? ==>
      && |r.value.messages| == |s.messages| + 2
      && r.value.messages[..|s.messages|] == s.messages
      && r.value.messages[|s.messages|] == Message(Human, AddPrompt(imageName, model), imageName, model, now)
      && r.value.messages[|s.messages| + 1] == Message(Ai, caption, imageName, model, now)
    ensures r.Some? ==> r.value.fileBacked == s.fileBacked && r.value.chatFileGone == s.chatFileGone
  {
    if Truthy(timestamp) then Some(s)
    else if s.chatFileGone then None
    else
      var e := Entry(now, imageName, model, caption);
      Some(SaveMetadata(s.(messages := s.messages + Exchange(e, AddPrompt(imageName, model))), e))
  }

  /** The messages `load_history` rebuilds from the records, two per record in order. */
  function Replay(h: seq<Entry>): (ms: seq<Message>)
    ensures |ms| == 2 * |h|
    ensures forall i :: 0 <= i < |h| ==>
      ms[2 * i] == Message(Human, ReloadPrompt(h[i].imageName, h[i].model), h[i].imageName, h[i].model, h[i].timestamp)
    ensures forall i :: 0 <= i < |h| ==>
      ms[2 * i + 1] == Message(Ai, h[i].caption, h[i].imageName, h[i].model, h[i].timestamp)
  {
    if h == [] then []
    else Exchange(h[0], ReloadPrompt(h[0].imageName, h[0].model)) + Replay(h[1..])
  }

  /** `load_history`: a no-op for a file-backed chat history; otherwise the
      rebuilt messages are appended to the chat history. */
  function LoadHistory(s: Store): (r: Store)
    ensures s.fileBacked ==> r == s
    ensures !s.fileBacked ==>
      && r.metadata == s.metadata && r.fileBacked == s.fileBacked && r.chatFileGone == s.chatFileGone
      && |r.messages| == |s.messages| + 2 * |s.metadata|
      && r.messages[..|s.messages|] == s.messages
      && r.messages[|s.messages|..] == Replay(s.metadata)
  {
    if s.fileBacked then s
    else s.(messages := s.messages + Replay(GetHistory(s)))
  }

  /** The constructor, given what the metadata file and the chat-history file hold. */
  function Open(fileBacked: bool, storedMetadata: seq<Entry>, storedMessages: seq<Message>): (r: Store)
    ensures r.fileBacked == fileBacked && GetHistory(r) == storedMetadata && !r.chatFileGone
    ensures fileBacked ==> r.messages == storedMessages
    ensures !fileBacked ==> r.messages == Replay(storedMetadata)
  {
    if fileBacked then Store(true, storedMetadata, storedMessages, false)
    else LoadHistory(Store(false, storedMetadata, [], false))
  }

  /** `clear_history`: the chat history is emptied and the metadata file is
      removed; a file-backed store also loses its chat-history file. */
  function ClearHistory(s: Store): (r: Store)
    ensures GetHistory(r) == [] && r.messages == []
    ensures r.fileBacked == s.fileBacked
    ensures r.chatFileGone <==> s.fileBacked
    ensures Consistent(r)
  {
    Store(s.fileBacked, [], [], s.fileBacked)
  }

  /** `get_recent_interactions`: `history[-n:]` when the history is longer than
      `n`, the whole history otherwise. Python's `-0` is `0`, so `n == 0` yields
      everything; a negative `n` drops the first `-n` records. */
  function RecentInteractions(s: Store, n: int): (r: seq<Entry>)
    ensures n >= 1 ==> r == GetHistory(s)[|GetHistory(s)| - Min(n, |GetHistory(s)|)..]
    ensures n == 0 ==> r == GetHistory(s)
    ensures n < 0 ==> r == GetHistory(s)[Min(-n, |GetHistory(s)|)..]
  {
    var history := GetHistory(s);
    if |history| > n then SuffixFrom(history, -n) else history
  }

  /** The records whose `field` equals `value`, in history order: the
      comprehension both searches use. */
  function Matching(s: Store, field: Entry -> string, value: string): (r: seq<Entry>)
    ensures forall i :: 0 <= i < |r| ==> field(r[i]) == value
    ensures forall e :: multiset(r)[e] == if field(e) == value then multiset(GetHistory(s))[e] else 0
    ensures IsSubseq(r, GetHistory(s))
  {
    Filter(GetHistory(s), (e: Entry) => field(e) == value)
  }

  /** `search_by_model`. */
  function SearchByModel(s: Store, model: string): seq<Entry> {
    Matching(s, (e: Entry) => e.model, model)
  }

  /** `search_by_image`. */
  function SearchByImage(s: Store, imageName: string): seq<Entry> {
    Matching(s, (e: Entry) => e.imageName, imageName)
  }

  /** A prompt rebuilt on reload lacks only the period of the one written on add. */
  lemma ReloadDropsPeriod(imageName: string, model: string)
    ensures AddPrompt(imageName, model) == ReloadPrompt(imageName, model) + "."
  {
  }

  /** Rebuilding the messages of a history with one more record appends that
      record's exchange. */
  lemma {:induction false} ReplaySnoc(h: seq<Entry>, e: Entry)
    ensures Replay(h + [e]) == Replay(h) + Exchange(e, ReloadPrompt(e.imageName, e.model))
    decreases |h|
  {
    if h == [] {
      assert [e][1..] == [];
    } else {
      assert (h + [e])[1..] == h[1..] + [e];
      ReplaySnoc(h[1..], e);
    }
  }

  /** For an in-memory store whose messages are those rebuilt from its records,
      adding an interaction and reopening the store gives back the same messages
      except that the new human prompt has lost its final period. */
  lemma ReopenAfterAdd(s: Store, imageName: string, model: string, caption: string, now: string)
    requires Consistent(s) && !s.fileBacked && s.messages == Replay(s.metadata)
    ensures var r := AddInteraction(s, imageName, model, caption, None, now);
      r.Some? &&
      var reopened := Open(false, GetHistory(r.value), []).messages;
      && |reopened| == |r.value.messages| == |s.messages| + 2
      && reopened[..|s.messages|] == r.value.messages[..|s.messages|]
      && reopened[|s.messages|].content + "." == r.value.messages[|s.messages|].content
      && reopened[|s.messages|].(content := r.value.messages[|s.messages|].content) == r.value.messages[|s.messages|]
      && reopened[|s.messages| + 1] == r.value.messages[|s.messages| + 1]
  {
    ReplaySnoc(s.metadata, Entry(now, imageName, model, caption));
  }

  /** For an in-memory store: adding then clearing leaves no history; two adds
      after a clear list both records in order, and the most recent one is the
      second. */
  lemma AddClearAndRecent(s: Store, e1: Entry, e2: Entry)
    requires Consistent(s) && !s.fileBacked
    ensures var r := AddInteraction(s, e1.imageName, e1.model, e1.caption, None, e1.timestamp);
      r.Some? && GetHistory(ClearHistory(r.value)) == []
    ensures var s1 := AddInteraction(ClearHistory(s), e1.imageName, e1.model, e1.caption, None, e1.timestamp);
      s1.Some? &&
      var s2 := AddInteraction(s1.value, e2.imageName, e2.model, e2.caption, None, e2.timestamp);
      s2.Some? && GetHistory(s2.value) == [e1, e2] && RecentInteractions(s2.value, 1) == [e2]
  {
    var s1 := AddInteraction(ClearHistory(s), e1.imageName, e1.model, e1.caption, None, e1.timestamp);
    assert GetHistory(s1.value) == [e1];
  }

  /** For a file-backed store, every add after a clear fails: the history stays
      empty however many interactions are added, until the store is reopened. */
  lemma ClearThenAddFails(s: Store, imageName: string, model: string, caption: string, now: string)
    requires s.fileBacked
    ensures AddInteraction(ClearHistory(s), imageName, model, caption, None, now).None?
    ensures GetHistory(ClearHistory(s)) == []
  {
  }

  /** Searching a history whose models are openai, gemini, groq, gemini for
      "gemini" finds the second and fourth records. */
  lemma SearchByModelExample(a: Entry, b: Entry, c: Entry, d: Entry)
    requires a.model == "openai" && b.model == "gemini" && c.model == "groq" && d.model == "gemini"
    ensures SearchByModel(Store(false, [a, b, c, d], [], false), "gemini") == [b, d]
  {
    assert "openai" != "gemini" by { assert "openai"[0] != "gemini"[0]; }
    assert "groq" != "gemini" by { assert "groq"[1] != "gemini"[1]; }
    var f := (e: Entry) => e.model;
    var p := (e: Entry) => f(e) == "gemini";
    assert SearchByModel(Store(false, [a, b, c, d], [], false), "gemini") == Filter([a, b, c, d], p);
    FilterSecondAndFourth(a, b, c, d, p);
  }

  lemma FilterSecondAndFourth(a: Entry, b: Entry, c: Entry, d: Entry, p: Entry -> bool)
    requires !p(a) && p(b) && !p(c) && p(d)
    ensures Filter([a, b, c, d], p) == [b, d]
  {
    var h := [a, b, c, d];
    assert h[1..][1..][1..][1..] == [];
    assert Filter(h[1..][1..][1..], p) == [d];
    assert Filter(h[1..][1..], p) == [d];
    assert Filter(h[1..], p) == [b, d];
  }
}

=== FILE: metrics.dfy ===
/** What the layout code asks of a font: the measured extent of a string. */
module Metrics {

  /** Glyph metrics of the active font: the width and height of a string as it is
      rendered (the extents of `ImageDraw.textbbox` for PIL, of `cv2.getTextSize`
      for OpenCV's built-in font). */
  datatype Metrics = Metrics(width: string -> int, height: string -> int)

  /** Pixels between consecutive lines of text, in both compositing modes. */
  const LineGap := 10

  /** Left edge that centres a run of `lineWidth` pixels in `width` pixels,
      rounding down as Python's `//` does. */
  function CenteredX(width: int, lineWidth: int): (x: int)
    ensures 0 <= (width - (x + lineWidth)) - x <= 1
  {
    (width - lineWidth) / 2
  }

  /** Row `i` of a grid with rows `step` apart lies one step below row `i - 1`. */
  lemma NextRow(i: int, step: int)
    ensures i * step == (i - 1) * step + step
  {
  }
}

=== FILE: overlay.dfy ===
/** Overlay mode of the compositor: the caption is wrapped to the image width less
    20 pixels on each side and drawn over the image, each line centred on a dark
    backing plate, the block anchored at the bottom, the top or the middle. */
module Overlay {
  import opened Text
  import opened Metrics
  import Wrap

  /** The drawing path: PIL with a TrueType font when a font file was given and
      exists, OpenCV's built-in Hershey font otherwise. */
  datatype Backend = Pil | Hershey

  /** A rectangle by its corners, as `draw.rectangle` and `cv2.rectangle` take it. */
  datatype Rect = Rect(left: int, top: int, right: int, bottom: int)

  /** One drawn line: its text, the anchor passed to the text-drawing call, and the
      backing plate drawn under it. */
  datatype PlacedLine = PlacedLine(text: string, x: int, y: int, plate: Rect)

  datatype Layout = Layout(lines: seq<string>, lineHeight: int, startY: int, placed: seq<PlacedLine>)

  const SideMargin := 20
  const BottomGap := 20
  const TopY := 30
  const PlatePadX := 10
  const PlatePadY := 5

  /** The wrap width: the image width less the side margins. */
  function MaxWidth(width: int): int {
    width - 2 * SideMargin
  }

  predicate IsBottom(position: string) {
    Lower(position) == "bottom"
  }

  predicate IsTop(position: string) {
    Lower(position) == "top"
  }

  /** Top of the text block of `totalHeight` pixels on an image `height` pixels tall. */
  function StartY(position: string, height: int, totalHeight: int): (y: int)
    ensures IsBottom(position) ==> y + totalHeight == height - BottomGap
    ensures !IsBottom(position) && IsTop(position) ==> y == TopY
    ensures !IsBottom(position) && !IsTop(position) ==> 0 <= (height - (y + totalHeight)) - y <= 1
  {
    if IsBottom(position) then height - totalHeight - BottomGap
    else if IsTop(position) then TopY
    else (height - totalHeight) / 2
  }

  /** Distance between the tops of consecutive lines: PIL uses the height of the
      whole caption, OpenCV the height of the letter "A"; both add a fixed gap. */
  function LineHeight(backend: Backend, m: Metrics, caption: string): int {
    match backend
    case Pil => m.height(caption) + LineGap
    case Hershey => m.height("A") + LineGap
  }

  /** Top edge of a line's box, the `width` by `height` box the metrics give,
      measured from the draw point: PIL's draw point is that box's top-left
      corner, `cv2.putText`'s its bottom-left corner. */
  function TextTop(backend: Backend, m: Metrics, p: PlacedLine): int {
    match backend
    case Pil => p.y
    case Hershey => p.y - m.height(p.text)
  }

  /** A line drawn centred in `width` pixels, on a plate that reaches 10 pixels
      beyond its box on either side and 5 above and below it. */
  predicate Framed(backend: Backend, m: Metrics, width: int, p: PlacedLine) {
    var w := m.width(p.text);
    var top := TextTop(backend, m, p);
    && 0 <= (width - (p.x + w)) - p.x <= 1
    && p.plate == Rect(p.x - PlatePadX, top - PlatePadY, p.x + w + PlatePadX, top + m.height(p.text) + PlatePadY)
  }

  /** Line `i` of the block that starts at `startY`. */
  function PlaceLine(backend: Backend, m: Metrics, width: int, startY: int, lineHeight: int,
                     i: nat, line: string): (p: PlacedLine)
    ensures p.text == line
    ensures TextTop(backend, m, p) == startY + i * lineHeight
    ensures Framed(backend, m, width, p)
    ensures var top := TextTop(backend, m, p);
      && p.plate.left < p.x && p.x + m.width(line) < p.plate.right
      && p.plate.top < top && top + m.height(line) < p.plate.bottom
  {
    var w := m.width(line);
    var h := m.height(line);
    var x := CenteredX(width, w);
    match backend
    case Pil =>
      var y := startY + i * lineHeight;
      PlacedLine(line, x, y, Rect(x - PlatePadX, y - PlatePadY, x + w + PlatePadX, y + h + PlatePadY))
    case Hershey =>
      var y := startY + i * lineHeight + h;
      PlacedLine(line, x, y, Rect(x - PlatePadX, y - h - PlatePadY, x + w + PlatePadX, y + PlatePadY))
  }

  /** The lines of a block in order, each framed, with glyph tops `lineHeight` apart. */
  predicate Block(backend: Backend, m: Metrics, width: int, startY: int, lineHeight: int,
                  lines: seq<string>, ps: seq<PlacedLine>) {
    && |ps| == |lines|
    && (forall i :: 0 <= i < |ps| ==> ps[i].text == lines[i] && Framed(backend, m, width, ps[i]))
    && (forall i :: 0 <= i < |ps| ==> TextTop(backend, m, ps[i]) == startY + i * lineHeight)
    && (forall i :: 1 <= i < |ps| ==> TextTop(backend, m, ps[i]) - TextTop(backend, m, ps[i - 1]) == lineHeight)
  }

  /** Rows `lineHeight` apart from `startY` are one line height from their predecessors. */
  lemma RowsApart(backend: Backend, m: Metrics, startY: int, lineHeight: int, ps: seq<PlacedLine>)
    requires forall i :: 0 <= i < |ps| ==> TextTop(backend, m, ps[i]) == startY + i * lineHeight
    ensures forall i :: 1 <= i < |ps| ==> TextTop(backend, m, ps[i]) - TextTop(backend, m, ps[i - 1]) == lineHeight
  {
    forall i | 1 <= i < |ps|
      ensures TextTop(backend, m, ps[i]) - TextTop(backend, m, ps[i - 1]) == lineHeight
    {
      NextRow(i, lineHeight);
    }
  }

  /** Every line of a block: line `i` holds `lines[i]`, centred on its exact plate,
      with its glyph top `i` line heights below `startY`. */
  function PlaceAll(backend: Backend, m: Metrics, width: int, startY: int, lineHeight: int,
                    lines: seq<string>): (ps: seq<PlacedLine>)
    ensures Block(backend, m, width, startY, lineHeight, lines, ps)
  {
    var ps := seq(|lines|, i requires 0 <= i < |lines| => PlaceLine(backend, m, width, startY, lineHeight, i, lines[i]));
    RowsApart(backend, m, startY, lineHeight, ps);
    ps
  }

  /** The layout `add_caption_overlay` draws on an image `width` by `height`. */
  function OverlayLayout(backend: Backend, m: Metrics, caption: string, position: string,
                         width: int, height: int): (r: Layout)
    ensures r.lines == Wrap.WrapCaption(caption, m.width, MaxWidth(width))
    ensures Wrap.SplitAll(r.lines) == Split(caption)
    ensures forall k :: 0 <= k < |r.lines| ==> Wrap.LineFits(r.lines[k], m.width, MaxWidth(width))
    ensures r.lineHeight == LineGap + (match backend case Pil => m.height(caption) case Hershey => m.height("A"))
    ensures r.startY == StartY(position, height, |r.lines| * r.lineHeight)
    ensures Block(backend, m, width, r.startY, r.lineHeight, r.lines, r.placed)
    ensures IsBottom(position) ==> r.startY + |r.lines| * r.lineHeight == height - BottomGap
  {
    var lines := Wrap.WrapCaption(caption, m.width, MaxWidth(width));
    var lh := LineHeight(backend, m, caption);
    var sy := StartY(position, height, |lines| * lh);
    Wrap.WrapPreservesWords(caption, m.width, MaxWidth(width));
    Wrap.WrapLineWidth(caption, m.width, MaxWidth(width));
    Layout(lines, lh, sy, PlaceAll(backend, m, width, sy, lh, lines))
  }


  /** Lowering is idempotent, so the position test ignores case entirely. */
  lemma PositionIgnoresCase(position: string, height: int, totalHeight: int)
    ensures StartY(position, height, totalHeight) == StartY(Lower(position), height, totalHeight)
  {
    LowerIdempotent(position);
  }

  /** The three choices the interface offers pick the three placements. */
  lemma InterfacePositions(height: int, totalHeight: int)
    ensures StartY("Bottom", height, totalHeight) == height - totalHeight - BottomGap
    ensures StartY("Top", height, totalHeight) == TopY
    ensures StartY("Center", height, totalHeight) == (height - totalHeight) / 2
  {
    assert Lower("Bottom") == "bottom";
    assert Lower("Top") == "top";
    assert Lower("Center") != "bottom" && Lower("Center") != "top" by {
      assert Lower("Center")[0] == 'c';
    }
  }
}

=== FILE: panel.dfy ===
/** The history panel of the interface: when there is any history, the last ten
    records, newest first; otherwise a notice that there is none. */
module Panel {
  import opened Basics
  import History

  const PanelSize := 10

  datatype PanelContent = NoHistory | Records(entries: seq<History.Entry>)

  /** `reversed(history[-10:])`. */
  function LatestFirst(h: seq<History.Entry>): (r: seq<History.Entry>)
    ensures |r| == Min(PanelSize, |h|)
    ensures forall i :: 0 <= i < |r| ==> r[i] == h[|h| - 1 - i]
  {
    Reverse(SuffixFrom(h, -PanelSize))
  }

  /** The history section: a notice for an empty history, otherwise the last
      `min(10, len)` records, newest first. */
  function HistoryPanel(s: History.Store): (p: PanelContent)
    ensures p.NoHistory? <==> History.GetHistory(s) == []
    ensures var h := History.GetHistory(s);
      p.Records? ==>
        && |p.entries| == Min(PanelSize, |h|)
        && forall i :: 0 <= i < |p.entries| ==> p.entries[i] == h[|h| - 1 - i]
  {
    var h := History.GetHistory(s);
    if h != [] then Records(LatestFirst(h)) else NoHistory
  }

  /** The panel lists the same records `get_recent_interactions(10)` returns, in reverse. */
  lemma PanelIsRecentReversed(s: History.Store)
    ensures LatestFirst(History.GetHistory(s)) == Reverse(History.RecentInteractions(s, PanelSize))
  {
    var h := History.GetHistory(s);
    var recent := History.RecentInteractions(s, PanelSize);
    assert |recent| == Min(PanelSize, |h|);
    assert forall i :: 0 <= i < |recent| ==> recent[i] == h[|h| - |recent| + i];
  }
}

=== FILE: text.dfy ===
/** The Python string operations the caption code uses: `str.split()` with no
    argument, joining words with single spaces, `str.lower()` as far as it matters
    for comparing against ASCII words, and the code-point order of `sorted`. */
module Text {

  /** The characters `str.isspace()` accepts; `str.split()` with no argument
      separates words at runs of them. */
  predicate IsSpace(c: char) {
    || c == ' ' || c == '\t' || c == '\n' || c == '\r' || c == '\U{0B}' || c == '\U{0C}'
    || ('\U{1C}' <= c <= '\U{1F}') || c == '\U{85}' || c == '\U{A0}' || c == '\U{1680}'
    || ('\U{2000}' <= c <= '\U{200A}') || c == '\U{2028}' || c == '\U{2029}'
    || c == '\U{202F}' || c == '\U{205F}' || c == '\U{3000}'
  }

  /** A word as `str.split()` yields it: non-empty, with no whitespace. */
  predicate IsWord(w: string) {
    w != [] && forall i :: 0 <= i < |w| ==> !IsSpace(w[i])
  }

  predicate AllWords(ws: seq<string>) {
    forall i :: 0 <= i < |ws| ==> IsWord(ws[i])
  }

  /** Length of the run of non-whitespace characters that starts `s`. */
  function WordLength(s: string): (n: nat)
    ensures n <= |s|
    ensures forall i :: 0 <= i < n ==> !IsSpace(s[i])
    ensures n < |s| ==> IsSpace(s[n])
  {
    if s == [] || IsSpace(s[0]) then 0 else 1 + WordLength(s[1..])
  }

  /** Python's `s.split()`: the maximal runs of non-whitespace, in order. */
  function Split(s: string): (words: seq<string>)
    ensures AllWords(words)
    decreases |s|
  {
    if s == [] then []
    else if IsSpace(s[0]) then Split(s[1..])
    else
      var n := WordLength(s);
      [s[..n]] + Split(s[n..])
  }

  /** Python's `" ".join(ws)`. */
  function JoinSpace(ws: seq<string>): string {
    if ws == [] then ""
    else if |ws| == 1 then ws[0]
    else ws[0] + " " + JoinSpace(ws[1..])
  }

  /** A line made of at least one word, separated by exactly one space each. */
  predicate SingleSpaced(line: string) {
    Split(line) != [] && JoinSpace(Split(line)) == line
  }

  /** A string that is one word is split into just that word. */
  lemma SplitWord(w: string)
    requires IsWord(w)
    ensures Split(w) == [w]
  {
    assert WordLength(w) == |w|;
    assert w[..|w|] == w;
  }

  /** Leading whitespace does not change the split. */
  lemma SplitSkipsSpace(s: string)
    requires s != [] && IsSpace(s[0])
    ensures Split(s) == Split(s[1..])
  {
  }

  /** A word followed by a space: the word is split off and the rest split after it. */
  lemma SplitWordSpace(w: string, rest: string)
    requires IsWord(w)
    ensures Split(w + " " + rest) == [w] + Split(rest)
  {
    var s := w + " " + rest;
    assert WordLength(s) == |w| by {
      assert s[|w|] == ' ';
      assert forall i :: 0 <= i < |w| ==> s[i] == w[i];
    }
    assert s[..|w|] == w;
    assert s[|w|..] == " " + rest;
    assert (" " + rest)[1..] == rest;
    SplitSkipsSpace(s[|w|..]);
  }

  /** A string of whitespace only has no words. */
  lemma {:induction false} SplitBlank(s: string)
    requires forall i :: 0 <= i < |s| ==> IsSpace(s[i])
    ensures Split(s) == []
    decreases |s|
  {
    if s != [] {
      SplitBlank(s[1..]);
    }
  }

  /** Splitting at any whitespace character splits the two sides apart. With
      `SplitWord` and `SplitBlank` this fixes the split of every string, since
      every string is words and whitespace. */
  lemma {:induction false} SplitAtSpace(a: string, c: char, b: string)
    requires IsSpace(c)
    ensures Split(a + [c] + b) == Split(a) + Split(b)
    decreases |a|, 1
  {
    var s := a + [c] + b;
    if a == [] {
      assert s == [c] + b && s[1..] == b;
    } else if IsSpace(a[0]) {
      assert s[1..] == a[1..] + [c] + b;
      SplitAtSpace(a[1..], c, b);
    } else if WordLength(a) < |a| {
      SplitAtSpaceAfterWord(a, c, b);
    } else {
      SplitAtSpaceWholeWord(a, c, b);
    }
  }

  /** `SplitAtSpace` when `a` starts with a word that whitespace ends inside `a`. */
  lemma {:induction false} SplitAtSpaceAfterWord(a: string, c: char, b: string)
    requires IsSpace(c) && 0 < WordLength(a) < |a|
    ensures Split(a + [c] + b) == Split(a) + Split(b)
    decreases |a|, 0
  {
    var s := a + [c] + b;
    var m := WordLength(a);
    assert s[..m] == a[..m] && s[m] == a[m];
    SplitFront(s, m);
    assert s[m..] == a[m..] + [c] + b;
    SplitAtSpace(a[m..], c, b);
  }

  /** `SplitAtSpace` when `a` is a single word. */
  lemma SplitAtSpaceWholeWord(a: string, c: char, b: string)
    requires IsSpace(c) && a != [] && WordLength(a) == |a|
    ensures Split(a + [c] + b) == Split(a) + Split(b)
  {
    var s := a + [c] + b;
    var m := |a|;
    assert s[..m] == a && s[m] == c;
    SplitFront(s, m);
    assert a[..m] == a && s[m..] == [c] + b && ([c] + b)[1..] == b;
    SplitFront(a, m);
    assert a[m..] == [];
  }

  /** A word at the front of `s`, ended by whitespace or the end of `s`, is
      split off first. */
  lemma SplitFront(s: string, m: nat)
    requires 0 < m <= |s| && (m == |s| || IsSpace(s[m]))
    requires forall i :: 0 <= i < m ==> !IsSpace(s[i])
    ensures Split(s) == [s[..m]] + Split(s[m..])
  {
    assert WordLength(s) == m by {
      if m < |s| {
        WordLengthAt(s, m);
      } else {
        WordLengthAll(s);
      }
    }
  }

  /** A string with no whitespace is one run. */
  lemma {:induction false} WordLengthAll(s: string)
    requires forall i :: 0 <= i < |s| ==> !IsSpace(s[i])
    ensures WordLength(s) == |s|
    decreases |s|
  {
    if s != [] {
      WordLengthAll(s[1..]);
    }
  }

  /** The word at the front of `s` ends at the first whitespace character. */
  lemma WordLengthAt(s: string, m: nat)
    requires m < |s| && IsSpace(s[m]) && forall i :: 0 <= i < m ==> !IsSpace(s[i])
    ensures WordLength(s) == m
  {
  }

  /** Splitting undoes joining with single spaces, for words as `split` makes them. */
  lemma {:induction false} SplitJoin(ws: seq<string>)
    requires AllWords(ws)
    ensures Split(JoinSpace(ws)) == ws
    decreases |ws|
  {
    if ws == [] {
    } else if |ws| == 1 {
      SplitWord(ws[0]);
    } else {
      SplitWordSpace(ws[0], JoinSpace(ws[1..]));
      SplitJoin(ws[1..]);
      assert ws == [ws[0]] + ws[1..];
    }
  }

  /** Joining words gives the empty string only when there are no words. */
  lemma JoinSpaceEmpty(ws: seq<string>)
    requires AllWords(ws)
    ensures JoinSpace(ws) == "" <==> ws == []
  {
    if |ws| >= 2 {
      assert |JoinSpace(ws)| >= |ws[0]|;
    }
  }

  /** Appending one word to a joined line: with a separating space unless the line is empty. */
  lemma {:induction false} JoinSpaceSnoc(ws: seq<string>, w: string)
    ensures JoinSpace(ws + [w]) == if ws == [] then w else JoinSpace(ws) + " " + w
    decreases |ws|
  {
    if |ws| >= 2 {
      assert (ws + [w])[1..] == ws[1..] + [w];
      JoinSpaceSnoc(ws[1..], w);
    } else if |ws| == 1 {
      assert (ws + [w])[1..] == [w];
    }
  }

  /** A single-spaced line is exactly the joined words of its split. */
  lemma SingleSpacedJoin(ws: seq<string>)
    requires AllWords(ws) && ws != []
    ensures SingleSpaced(JoinSpace(ws)) && Split(JoinSpace(ws)) == ws
  {
    SplitJoin(ws);
  }

  /** `r` is `s` with some whitespace cut off either end. */
  predicate TrimmedFrom(r: string, s: string) {
    exists a, b ::
      && 0 <= a <= b <= |s| && r == s[a..b]
      && (forall i :: 0 <= i < a ==> IsSpace(s[i]))
      && (forall i :: b <= i < |s| ==> IsSpace(s[i]))
  }

  /** Python's `s.strip()`: leading and trailing whitespace removed. The result
      is a slice of `s`, and everything cut off on either side is whitespace. */
  function Strip(s: string): (r: string)
    ensures r == [] || (!IsSpace(r[0]) && !IsSpace(r[|r| - 1]))
    ensures TrimmedFrom(r, s)
    ensures (s == [] || (!IsSpace(s[0]) && !IsSpace(s[|s| - 1]))) ==> r == s
  {
    var l := StripLeft(s);
    var r := StripRight(l);
    StripLeftCuts(s);
    StripRightCuts(l);
    TrimBoth(s, l, r);
    r
  }

  /** `s.lstrip()`. */
  function StripLeft(s: string): (r: string)
    ensures |r| <= |s|
    ensures r == [] || !IsSpace(r[0])
    ensures r != [] ==> r[|r| - 1] == s[|s| - 1]
    ensures (s == [] || !IsSpace(s[0])) ==> r == s
  {
    if s != [] && IsSpace(s[0]) then StripLeft(s[1..]) else s
  }

  /** `s.rstrip()`. */
  function StripRight(s: string): (r: string)
    ensures |r| <= |s|
    ensures r == [] || !IsSpace(r[|r| - 1])
    ensures r != [] ==> r[0] == s[0]
    ensures (s == [] || !IsSpace(s[|s| - 1])) ==> r == s
  {
    if s != [] && IsSpace(s[|s| - 1]) then StripRight(s[..|s| - 1]) else s
  }

  /** Cutting whitespace from the front, then from the back, trims `s`. */
  lemma TrimBoth(s: string, l: string, r: string)
    requires |l| <= |s| && l == s[|s| - |l|..] && forall i :: 0 <= i < |s| - |l| ==> IsSpace(s[i])
    requires |r| <= |l| && r == l[..|r|] && forall i :: |r| <= i < |l| ==> IsSpace(l[i])
    ensures TrimmedFrom(r, s)
  {
    var a := |s| - |l|;
    assert r == s[a..a + |r|];
    forall i | a + |r| <= i < |s|
      ensures IsSpace(s[i])
    {
      assert s[i] == l[i - a];
    }
  }

  /** `lstrip` leaves a suffix and cuts only whitespace. */
  lemma {:induction false} StripLeftCuts(s: string)
    ensures StripLeft(s) == s[|s| - |StripLeft(s)|..]
    ensures forall i :: 0 <= i < |s| - |StripLeft(s)| ==> IsSpace(s[i])
    decreases |s|
  {
    if s != [] && IsSpace(s[0]) {
      StripLeftCuts(s[1..]);
    }
  }

  /** `rstrip` leaves a prefix and cuts only whitespace. */
  lemma {:induction false} StripRightCuts(s: string)
    ensures StripRight(s) == s[..|StripRight(s)|]
    ensures forall i :: |StripRight(s)| <= i < |s| ==> IsSpace(s[i])
    decreases |s|
  {
    if s != [] && IsSpace(s[|s| - 1]) {
      StripRightCuts(s[..|s| - 1]);
    }
  }

  function LowerChar(c: char): char {
    if 'A' <= c <= 'Z' then (c as int + 32) as char else c
  }

  /** `s.lower()` restricted to ASCII letters: capitals become their small
      letters and every other character is kept. Python also lowers letters
      outside ASCII, and two of them lower to ASCII (U+212A KELVIN SIGN to "k",
      U+0130 to "i" and a combining dot); neither "bottom" nor "top" holds a "k"
      or an "i", so comparing the result against those words agrees with Python. */
  function Lower(s: string): (r: string)
    ensures |r| == |s|
    ensures forall i :: 0 <= i < |r| ==> !('A' <= r[i] <= 'Z')
    ensures forall i :: 0 <= i < |s| && 'A' <= s[i] <= 'Z' ==> r[i] as int == s[i] as int + 32
    ensures forall i :: 0 <= i < |s| && !('A' <= s[i] <= 'Z') ==> r[i] == s[i]
  {
    seq(|s|, i requires 0 <= i < |s| => LowerChar(s[i]))
  }

  /** Lowering twice is lowering once. */
  lemma LowerIdempotent(s: string)
    ensures Lower(Lower(s)) == Lower(s)
  {
    var t := Lower(s);
    assert forall i :: 0 <= i < |t| ==> Lower(t)[i] == t[i];
  }

  /** Python's `a < b` on strings: code-point lexicographic order. */
  predicate LexLess(a: string, b: string) {
    if b == [] then false
    else if a == [] then true
    else if a[0] != b[0] then a[0] < b[0]
    else LexLess(a[1..], b[1..])
  }

  lemma LexLessIrreflexive(a: string)
    ensures !LexLess(a, a)
  {
  }

  lemma {:induction false} LexLessTransitive(a: string, b: string, c: string)
    requires LexLess(a, b) && LexLess(b, c)
    ensures LexLess(a, c)
  {
    if a != [] && b != [] && c != [] && a[0] == b[0] && b[0] == c[0] {
      LexLessTransitive(a[1..], b[1..], c[1..]);
    }
  }

  lemma {:induction false} LexLessTotal(a: string, b: string)
    requires a != b
    ensures LexLess(a, b) || LexLess(b, a)
  {
    if a != [] && b != [] && a[0] == b[0] {
      assert a == [a[0]] + a[1..] && b == [b[0]] + b[1..];
      LexLessTotal(a[1..], b[1..]);
    }
  }

  lemma {:induction false} LexLessAsymmetric(a: string, b: string)
    requires LexLess(a, b)
    ensures !LexLess(b, a)
  {
    if a != [] && b != [] && a[0] == b[0] {
      LexLessAsymmetric(a[1..], b[1..]);
    }
  }
}

=== FILE: wrap.dfy ===
/** The greedy word-wrap that `add_caption_overlay` (both backends) and
    `add_caption_background` each carry a copy of. The glyph metrics are an
    abstract `measure`: the width of a string as the active font renders it. */
module Wrap {
  import opened Text

  /** The candidate line tried when `word` is added to the line being built. */
  function Extend(current: string, word: string): string {
    if current != "" then current + " " + word else word
  }

  /** The loop over the remaining `words`, with `current` the line being built:
      a candidate that fits replaces `current`; one that does not closes
      `current` (if any) and starts a new line with the word alone. */
  function Greedy(words: seq<string>, current: string, measure: string -> int, maxWidth: int): seq<string>
    decreases |words|
  {
    if words == [] then
      if current != "" then [current] else []
    else
      var test := Extend(current, words[0]);
      if measure(test) <= maxWidth then Greedy(words[1..], test, measure, maxWidth)
      else (if current != "" then [current] else []) + Greedy(words[1..], words[0], measure, maxWidth)
  }

  /** The wrapped lines of `caption`: the caption itself when it fits as a whole,
      otherwise the greedy packing of its words. */
  function WrapCaption(caption: string, measure: string -> int, maxWidth: int): seq<string> {
    if measure(caption) > maxWidth then Greedy(Split(caption), "", measure, maxWidth) else [caption]
  }

  /** The words of all lines, in line order. */
  function SplitAll(lines: seq<string>): seq<string> {
    if lines == [] then [] else Split(lines[0]) + SplitAll(lines[1..])
  }

  lemma SplitAllCons(line: string, lines: seq<string>)
    ensures SplitAll([line] + lines) == Split(line) + SplitAll(lines)
  {
    assert ([line] + lines)[1..] == lines;
  }

  lemma {:induction false} SplitAllLength(lines: seq<string>)
    requires forall k :: 0 <= k < |lines| ==> Split(lines[k]) != []
    ensures |lines| <= |SplitAll(lines)|
    decreases |lines|
  {
    if lines != [] {
      SplitAllLength(lines[1..]);
    }
  }

  /** A wrapped line either fits or is a single word. */
  predicate LineFits(line: string, measure: string -> int, maxWidth: int) {
    measure(line) <= maxWidth || |Split(line)| == 1
  }

  /** `line` was closed because the first word of `next` would not fit after it. */
  predicate ClosedBefore(line: string, next: string, measure: string -> int, maxWidth: int) {
    Split(next) != [] && measure(Extend(line, Split(next)[0])) > maxWidth
  }

  predicate AllSingleSpaced(lines: seq<string>) {
    forall k :: 0 <= k < |lines| ==> SingleSpaced(lines[k])
  }

  predicate AllFit(lines: seq<string>, measure: string -> int, maxWidth: int) {
    forall k :: 0 <= k < |lines| ==> LineFits(lines[k], measure, maxWidth)
  }

  predicate AllClosed(lines: seq<string>, measure: string -> int, maxWidth: int) {
    forall k :: 1 <= k < |lines| ==> ClosedBefore(lines[k - 1], lines[k], measure, maxWidth)
  }

  /** One unfolding of the loop, for a word that fits after `current`. */
  lemma GreedyFitStep(words: seq<string>, current: string, measure: string -> int, maxWidth: int)
    requires words != [] && measure(Extend(current, words[0])) <= maxWidth
    ensures Greedy(words, current, measure, maxWidth)
         == Greedy(words[1..], Extend(current, words[0]), measure, maxWidth)
  {
  }

  /** One unfolding of the loop, for a word that does not fit after `current`. */
  lemma GreedyBreakStep(words: seq<string>, current: string, measure: string -> int, maxWidth: int)
    requires words != [] && measure(Extend(current, words[0])) > maxWidth
    ensures Greedy(words, current, measure, maxWidth)
         == (if current != "" then [current] else []) + Greedy(words[1..], words[0], measure, maxWidth)
  {
  }

  /** The words of the greedy lines are the words of the line under construction
      followed by the remaining words. */
  lemma {:induction false} GreedyWords(words: seq<string>, cw: seq<string>, current: string,
                                       measure: string -> int, maxWidth: int)
    requires AllWords(words) && AllWords(cw) && current == JoinSpace(cw)
    ensures SplitAll(Greedy(words, current, measure, maxWidth)) == cw + words
    decreases |words|, 1
  {
    JoinSpaceEmpty(cw);
    if words == [] {
      if current != "" {
        SplitJoin(cw);
        SplitAllCons(current, []);
      }
    } else if measure(Extend(current, words[0])) <= maxWidth {
      var w, rest := words[0], words[1..];
      GreedyFitStep(words, current, measure, maxWidth);
      JoinSpaceSnoc(cw, w);
      GreedyWords(rest, cw + [w], Extend(current, w), measure, maxWidth);
      assert cw + [w] + rest == cw + words;
    } else {
      GreedyWordsBreak(words, cw, current, measure, maxWidth);
    }
  }

  /** The case of `GreedyWords` where the next word closes the current line. */
  lemma {:induction false} GreedyWordsBreak(words: seq<string>, cw: seq<string>, current: string,
                                            measure: string -> int, maxWidth: int)
    requires AllWords(words) && AllWords(cw) && current == JoinSpace(cw)
    requires words != [] && measure(Extend(current, words[0])) > maxWidth
    ensures SplitAll(Greedy(words, current, measure, maxWidth)) == cw + words
    decreases |words|, 0
  {
    var w, rest := words[0], words[1..];
    GreedyBreakStep(words, current, measure, maxWidth);
    var tail := Greedy(rest, w, measure, maxWidth);
    assert SplitAll(tail) == [w] + rest by {
      assert JoinSpace([w]) == w;
      GreedyWords(rest, [w], w, measure, maxWidth);
    }
    JoinSpaceEmpty(cw);
    if current != "" {
      SplitJoin(cw);
      SplitAllCons(current, tail);
      assert cw + ([w] + rest) == cw + words;
    } else {
      assert [] + tail == tail;
    }
  }

  /** Every greedy line is a non-empty run of words separated by single spaces. */
  lemma {:induction false} GreedySpaced(words: seq<string>, cw: seq<string>, current: string,
                                        measure: string -> int, maxWidth: int)
    requires AllWords(words) && AllWords(cw) && current == JoinSpace(cw)
    ensures AllSingleSpaced(Greedy(words, current, measure, maxWidth))
    decreases |words|
  {
    JoinSpaceEmpty(cw);
    if words == [] {
      if current != "" {
        SingleSpacedJoin(cw);
      }
    } else {
      var w, rest := words[0], words[1..];
      var test := Extend(current, w);
      if measure(test) <= maxWidth {
        GreedyFitStep(words, current, measure, maxWidth);
        JoinSpaceSnoc(cw, w);
        GreedySpaced(rest, cw + [w], test, measure, maxWidth);
      } else {
        GreedyBreakStep(words, current, measure, maxWidth);
        var tail := Greedy(rest, w, measure, maxWidth);
        assert JoinSpace([w]) == w;
        GreedySpaced(rest, [w], w, measure, maxWidth);
        if current != "" {
          SingleSpacedJoin(cw);
          var lines := [current] + tail;
          assert forall k :: 1 <= k < |lines| ==> lines[k] == tail[k - 1];
        } else {
          assert [] + tail == tail;
        }
      }
    }
  }

  /** Every greedy line fits, or holds a single word. */
  lemma {:induction false} GreedyWidths(words: seq<string>, cw: seq<string>, current: string,
                                        measure: string -> int, maxWidth: int)
    requires AllWords(words) && AllWords(cw) && current == JoinSpace(cw)
    requires cw == [] || measure(current) <= maxWidth || |cw| == 1
    ensures AllFit(Greedy(words, current, measure, maxWidth), measure, maxWidth)
    decreases |words|
  {
    JoinSpaceEmpty(cw);
    if words == [] {
      if current != "" {
        SplitJoin(cw);
      }
    } else {
      var w, rest := words[0], words[1..];
      var test := Extend(current, w);
      if measure(test) <= maxWidth {
        GreedyFitStep(words, current, measure, maxWidth);
        JoinSpaceSnoc(cw, w);
        GreedyWidths(rest, cw + [w], test, measure, maxWidth);
      } else {
        GreedyBreakStep(words, current, measure, maxWidth);
        var tail := Greedy(rest, w, measure, maxWidth);
        assert JoinSpace([w]) == w;
        GreedyWidths(rest, [w], w, measure, maxWidth);
        if current != "" {
          SplitJoin(cw);
          var lines := [current] + tail;
          assert forall k :: 1 <= k < |lines| ==> lines[k] == tail[k - 1];
        } else {
          assert [] + tail == tail;
        }
      }
    }
  }

  /** A line is closed only because the next line's first word would not fit after it. */
  lemma {:induction false} GreedyMaximal(words: seq<string>, cw: seq<string>, current: string,
                                         measure: string -> int, maxWidth: int)
    requires AllWords(words) && AllWords(cw) && current == JoinSpace(cw)
    ensures AllClosed(Greedy(words, current, measure, maxWidth), measure, maxWidth)
    decreases |words|
  {
    if words != [] {
      var w, rest := words[0], words[1..];
      var test := Extend(current, w);
      if measure(test) <= maxWidth {
        GreedyFitStep(words, current, measure, maxWidth);
        JoinSpaceSnoc(cw, w);
        JoinSpaceEmpty(cw);
        GreedyMaximal(rest, cw + [w], test, measure, maxWidth);
      } else {
        GreedyBreakStep(words, current, measure, maxWidth);
        var tail := Greedy(rest, w, measure, maxWidth);
        assert JoinSpace([w]) == w;
        GreedyMaximal(rest, [w], w, measure, maxWidth);
        if current != "" {
          GreedyWords(rest, [w], w, measure, maxWidth);
          GreedySpaced(rest, [w], w, measure, maxWidth);
          assert tail != [] by {
            assert SplitAll(tail) == [w] + rest;
          }
          assert Split(tail[0]) != [];
          assert SplitAll(tail) == Split(tail[0]) + SplitAll(tail[1..]);
          assert (Split(tail[0]) + SplitAll(tail[1..]))[0] == Split(tail[0])[0];
          assert Split(tail[0])[0] == w;
          assert ClosedBefore(current, tail[0], measure, maxWidth);
          var lines := [current] + tail;
          assert forall k :: 1 <= k < |lines| ==> lines[k] == tail[k - 1];
        } else {
          assert [] + tail == tail;
        }
      }
    }
  }

  /** No word of the caption is dropped, repeated or reordered: the words of the
      wrapped lines are exactly `caption.split()`. */
  lemma WrapPreservesWords(caption: string, measure: string -> int, maxWidth: int)
    ensures SplitAll(WrapCaption(caption, measure, maxWidth)) == Split(caption)
  {
    if measure(caption) > maxWidth {
      GreedyWords(Split(caption), [], "", measure, maxWidth);
    } else {
      assert SplitAll([caption]) == Split(caption) + [];
    }
  }

  /** Every wrapped line measures at most `maxWidth`, unless it is a single word. */
  lemma WrapLineWidth(caption: string, measure: string -> int, maxWidth: int)
    ensures var lines := WrapCaption(caption, measure, maxWidth);
      forall k :: 0 <= k < |lines| ==> LineFits(lines[k], measure, maxWidth)
  {
    if measure(caption) > maxWidth {
      GreedyWidths(Split(caption), [], "", measure, maxWidth);
    }
  }

  /** A caption that fits is kept verbatim as the only line. Otherwise every line
      is a non-empty run of words joined by single spaces, there are no more lines
      than words, and there are no lines at all exactly when the caption has no words. */
  lemma WrapLineShape(caption: string, measure: string -> int, maxWidth: int)
    ensures var lines := WrapCaption(caption, measure, maxWidth);
      && (measure(caption) <= maxWidth ==> lines == [caption])
      && (measure(caption) > maxWidth ==>
            && (forall k :: 0 <= k < |lines| ==> SingleSpaced(lines[k]) && lines[k] != "")
            && |lines| <= |Split(caption)|
            && (lines == [] <==> Split(caption) == []))
  {
    if measure(caption) > maxWidth {
      var lines := WrapCaption(caption, measure, maxWidth);
      GreedyWords(Split(caption), [], "", measure, maxWidth);
      GreedySpaced(Split(caption), [], "", measure, maxWidth);
      SplitAllLength(lines);
      assert forall k :: 0 <= k < |lines| ==> Split(lines[k]) != [] && lines[k] != "";
    }
  }

  /** Every break is forced: each line but the last was closed because the first
      word of the following line did not fit after it. */
  lemma WrapIsGreedy(caption: string, measure: string -> int, maxWidth: int)
    ensures var lines := WrapCaption(caption, measure, maxWidth);
      forall k :: 1 <= k < |lines| ==> ClosedBefore(lines[k - 1], lines[k], measure, maxWidth)
  {
    if measure(caption) > maxWidth {
      GreedyMaximal(Split(caption), [], "", measure, maxWidth);
    }
  }

  /** A caption that fits is one line, even the empty one; a blank caption too
      wide to fit has no words and so yields no line at all. */
  lemma BlankCaptionLines(measure: string -> int, maxWidth: int)
    ensures measure("") <= maxWidth ==> WrapCaption("", measure, maxWidth) == [""]
    ensures measure(" ") > maxWidth ==> WrapCaption(" ", measure, maxWidth) == []
  {
    assert Split(" ") == Split(" "[1..]);
  }
}
